=== FILE: README.md ===
# PeerPrep decision core in Dafny

PeerPrep is a platform for peer interview practice. Two users are matched on their
question preferences. They then share a live code room and end the session when both
agree. This project models the parts of PeerPrep that make decisions, leaving out the
plumbing around them. Each part is written as pure functions over immutable datatypes,
with the properties it promises proved about it.

- **Collaboration gateway** (`collaboration.dfy`) is the socket.io server of the
  collaboration service. It is a state machine `(Server, Input) -> Reaction(next, actions)`:
  - It reads the `accessToken=` cookie from the handshake header.
  - A socket is admitted only once its token check succeeds. Until then it has no handlers.
  - `join-room` records a seat for the socket, joins it to the room, and emits two events.
  - `disconnect` notifies the members left in the room.
  - The end-of-session vote keeps one tally per room. Two distinct voters finalise the room
    and reset its tally.

  The invariant, proved for every state reachable from start-up, has two parts: every tally holds at
  most one pending vote, and only admitted sockets have joined a room through `join-room`.
  socket.io also keeps each live socket in a room named by its own id, admitted or not.
  An emission to a room reaches that socket too (`OwnIdRoom`).
- **Match combination** (`matching.dfy`) covers the pure decisions of the matching
  service once a partner has been found:
  - order-preserving list intersection, against a reference definition;
  - the enum-to-string conversion;
  - the JavaScript default for language;
  - the choice of session language;
  - the cancelled-user discard rule;
  - how the match result is built.
- **User-service access control** (`access_control.dfy`) covers where the access token
  is read from (cookie first, then a `Bearer` header) and the 401 outcomes. It also
  covers the admin and owner-or-admin checks, which answer 403.
- **Auth endpoints** (`auth_controller.dfy`) give the status-code decision trees of
  login, logout and forgot-password.
- **Front-end route guard** (`page_guard.dfy`) covers the config `matcher` that decides
  which paths the middleware runs on, public routes, the redirect to login, the
  `/admin` prefix check and the 403 redirect. It also covers where the middleware reads
  the viewer's role from the user service's verify-token reply.
- **Forgot-password form** (`forget_password_form.dfy`) is the form's validity state
  machine.
- **Site configuration** (`site_config.dfy`) is the navigation for a role. It is proved
  to agree with the route guard when the guard reads the role from the user under the
  reply's `data`. As written, the guard reads the role from the top of the reply instead
  (see Findings).

The shared modules are:
- `Wrappers`, which defines `Option` and `Attempt`. An `Attempt` is the result of an
  external call that may throw.
- `Strings`, which models JavaScript's `split`, `startsWith`, `endsWith` and truthiness.
- `Users`, which holds the stored user record.

Every external call is a function-valued parameter or an input event of the state
machine:
- the database and repository lookups;
- bcrypt;
- JWT signing and verification;
- the mailer;
- the token check behind the socket gateway;
- the front end's token validation.

## Behaviour worth knowing

- Every `join-room` makes the server send `user-join` to the whole room, the joiner
  included, however many members the room already has (`OnJoinRoom`).
- A vote after a room was finalised starts a fresh tally with that voter, who is then
  told to wait (`VoteAfterFinaliseStartsFresh`).
- The `userId` of `user-agreed-end` and the `username` of `join-room` come from the
  client's message, not from the identity the token check established. The model
  therefore takes them from the input.

## Model

| member | source | states |
|---|---|---|
| Strings.IndexOf | backend/collaboration-service/app.ts:98-101 | The result is the leftmost position where the separator occurs, or none when it occurs nowhere. |
| Strings.Split | backend/collaboration-service/app.ts:98-101 | `split` always yields at least one piece. |
| Strings.JoinSplit | backend/collaboration-service/app.ts:98-101 | Joining the pieces of a split with the same separator gives back the original string. |
| Strings.SplitJoin | backend/collaboration-service/app.ts:98-101 | Splitting a join gives back the pieces. This needs at least one piece and no piece containing the separator's first character. |
| Strings.SplitPiecesFree | backend/collaboration-service/app.ts:98-101 | No piece of a split contains the separator. |
| Strings.SplitHead | backend/user-service/middleware/basic-access-control.js:12 | The first piece is a prefix of the string that does not contain the separator. It is the whole string, or it is followed by the separator. |
| Collaboration.FirstAccessCookie | backend/collaboration-service/app.ts:99-100 | The result is the first cookie that starts with `accessToken=`: no earlier cookie starts so. It is absent exactly when no cookie starts so. |
| Collaboration.CookieToken | backend/collaboration-service/app.ts:98-101 | A token is found exactly when some cookie starts with `accessToken=`. The token never contains `=`. It is the whole rest of the first such cookie after `accessToken=`, up to the next `=` or the cookie's end. |
| Collaboration.AccessCookieShape | backend/collaboration-service/app.ts:100-101 | A cookie starting with `accessToken=` always splits into at least two pieces at `=`. The second piece holds no `=` and is everything after `accessToken=` up to the next `=` or the cookie's end. |
| Collaboration.CookieTokenRoundTrip | backend/collaboration-service/app.ts:98-101 | Take cookies joined with `"; "` whose first `accessToken=` cookie carries `t`. If no cookie contains `;` and `t` contains no `=`, exactly `t` is extracted. |
| Collaboration.LeaveAll | backend/collaboration-service/app.ts:140-146 | Before `disconnect` runs, the socket is gone from every room and the rooms are otherwise unchanged. |
| Collaboration.OnConnection | backend/collaboration-service/app.ts:94-107 | A new socket without a truthy token gets exactly one `error` with the no-token message and is disconnected. It gets no handlers and changes no room. Otherwise it waits for the token check. |
| Collaboration.OnAuthSettled | backend/collaboration-service/app.ts:110-152 | A socket's handlers exist exactly when its token check succeeded. A failed check gives exactly one `error` with the token-failed message, then a disconnect, and leaves the socket closed. A successful check leaves the socket admitted as that user, with no seat. A settle for a socket that is not waiting for its check changes nothing and emits nothing. |
| Collaboration.SettleAfterDisconnectIsInert | backend/collaboration-service/app.ts:110-152 | A socket that disconnects while its token check is pending stays closed with no handlers when the check later settles. Neither event emits anything. |
| Collaboration.OnJoinRoom | backend/collaboration-service/app.ts:115-123 | An admitted socket's seat records the room and username. It becomes a member and is told `room-joined`. Then the whole room, the joiner included, hears `user-join`. Other rooms, other sockets and the tallies do not change, and an unadmitted socket does nothing. |
| Collaboration.OnUserAgreedEnd | backend/collaboration-service/app.ts:125-138 | Each vote emits exactly one event to the room. `both-users-agreed-end` is emitted exactly when the voter plus the tally make two distinct users, and the tally is then emptied. Otherwise `waiting-for-other-user-end` is emitted and the voter joins the tally. Other rooms' tallies do not change. |
| Collaboration.OnDisconnect | backend/collaboration-service/app.ts:140-146 | At most one event is emitted. `user-disconnect` with the seat's username goes to the recorded room exactly when the socket was admitted and had joined a non-empty room id. The leaver does not receive it. The leaver is removed from every room and nobody else is. It ends closed, keeping its seat, and no other socket's state changes. |
| Collaboration.StepPreservesInv | backend/collaboration-service/app.ts:94-153 | Every event keeps each tally at most one vote, and keeps the sockets that joined rooms through `join-room` restricted to admitted ones. |
| Collaboration.RunPreservesInv | backend/collaboration-service/app.ts:94-153 | The invariant holds after any sequence of events. |
| Collaboration.InitInv | backend/collaboration-service/app.ts:92 | The server starts with no votes and no room members, so the invariant holds at start-up. |
| Collaboration.ReachableInv | backend/collaboration-service/app.ts:92-153 | Every state reached from start-up keeps each tally at most one vote and only admitted sockets in rooms. |
| Collaboration.VoteFinalisesIffOtherVoted | backend/collaboration-service/app.ts:126-137 | Under the invariant, a vote finalises the room exactly when a different user already voted there. A repeated vote by the same user waits and leaves the tally unchanged. |
| Collaboration.TwoPartyHandshake | backend/collaboration-service/app.ts:125-138 | From an empty tally, two distinct voters produce `waiting` then `both-users-agreed-end` and an empty tally. The same user voting twice gets `waiting` twice. |
| Collaboration.VoteAfterFinaliseStartsFresh | backend/collaboration-service/app.ts:132-137 | A vote after finalisation waits, and the tally then holds that voter alone. |
| Collaboration.OwnIdRoomReachesWaitingSocket | backend/collaboration-service/app.ts:115-123 | The `user-join` that `join-room` sends to room `b` also reaches socket `b`, through socket.io's own-id room, even while `b` is still waiting for its token check. |
| Collaboration.JoinThenAgreeScenario | backend/collaboration-service/app.ts:115-138 | Two admitted sockets join an empty room and then both vote. This yields `room-joined`/`user-join` for each, then `waiting`, then `both-users-agreed-end`. Both stay members and the tally ends empty. |
| Collaboration.ObjectKeysAfterSet | backend/collaboration-service/app.ts:128 | Storing a vote under `__proto__` adds no own key to the tally object. Any other id becomes a key, and other keys are unaffected. |
| Collaboration.VoteAsWritten | backend/collaboration-service/app.ts:127-137 | On the tally stored as a plain object, a vote finalises exactly when the object then has two own keys. The tally is then emptied; otherwise it keeps the keys. |
| Collaboration.ProtoVoterIsNotCounted | backend/collaboration-service/app.ts:127-137 | As written, a vote by `__proto__` and then one by another user both only wait. |
| Collaboration.UnauthenticatedIsInert | backend/collaboration-service/app.ts:110-152 | A socket that has not passed the token check emits nothing on join, vote or disconnect, and changes no room or tally. |
| Matching.FindIntersection | backend/matching-service/internal/controllers/match_controller.go:57-72 | The result equals the reference filter: the elements of `b` that occur in `a`, in `b`'s order. Every element is in both lists. |
| Matching.FindComplexityIntersection | backend/matching-service/internal/controllers/match_controller.go:74-90 | The same filter-by-membership result over difficulty levels. |
| Matching.KeepSharedMembers | backend/matching-service/internal/controllers/match_controller.go:62-69 | Every element of the intersection occurs in both lists. |
| Matching.KeepSharedCounts | backend/matching-service/internal/controllers/match_controller.go:62-69 | An element of `a` appears as often as it does in `b`, and any other element never appears. |
| Matching.KeepSharedOrdered | backend/matching-service/internal/controllers/match_controller.go:62-69 | The intersection is a subsequence of `b`. |
| Matching.KeepSharedEmpty | backend/matching-service/internal/controllers/match_controller.go:58-72 | The intersection is empty when either list is empty. |
| Matching.KeepSharedHead | backend/matching-service/internal/controllers/match_controller.go:172-177 | The intersection is non-empty exactly when some element of `b` occurs in `a`. Its first element is then the first such element of `b`. |
| Matching.ConvertEnumToStringSlice | backend/matching-service/internal/controllers/match_controller.go:92-98 | Length is kept, and element `i` is the string of enum `i`. |
| Matching.ConvertRoundTrip | backend/matching-service/internal/controllers/match_controller.go:92-98 | Casting the strings back gives the original languages. |
| Matching.ConvertMembership | backend/matching-service/internal/controllers/match_controller.go:92-98 | A name is among the converted strings exactly when its language is in the list. |
| Matching.ApplyLanguageDefault | backend/matching-service/internal/controllers/match_controller.go:112-118 | When both language lists are empty, both become `[JavaScript]`. Otherwise both users are unchanged. No other field ever changes. |
| Matching.SelectLanguage | backend/matching-service/internal/controllers/match_controller.go:172-177 | The result is the first of the requester's languages that the partner also lists, or the empty value when they share none. |
| Matching.DefaultIsJavaScript | backend/matching-service/internal/controllers/match_controller.go:112-118 | When neither user lists a language, the session language is JavaScript. |
| Matching.StartMatchingProcess | backend/matching-service/internal/controllers/match_controller.go:100-191 | The outcome is one of four: no partner gives no match, a failed status lookup gives no match, a cancelled user discards it, and otherwise a result is published. The published room, user one and its socket come from the requester, and user two from the partner. Difficulty and categories keep the partner's entries that the requester shares, and the language is the first common one after the default. |
| AccessControl.RequestToken | backend/user-service/middleware/basic-access-control.js:6-14 | A truthy cookie token always wins. Otherwise a header starting with `Bearer ` gives a token free of spaces: the whole text after `Bearer ` up to the next space or the header's end. Otherwise there is no truthy token. |
| AccessControl.BearerRoundTrip | backend/user-service/middleware/basic-access-control.js:10-14 | With no cookie token, the header `Bearer t` yields exactly `t` when `t` contains no space. |
| AccessControl.VerifyAccessToken | backend/user-service/middleware/basic-access-control.js:4-37 | The request is authenticated exactly when the token is truthy, verifies, and names a stored user. `req.user` then comes from the stored user, not the token. Every other case is 401 "Authentication failed". |
| AccessControl.CookieTakesPrecedence | backend/user-service/middleware/basic-access-control.js:6-9 | With a truthy cookie token, the outcome does not depend on the `Authorization` header. |
| AccessControl.VerifyIsAdmin | backend/user-service/middleware/basic-access-control.js:39-45 | The request passes exactly when the user is an admin. Otherwise the answer is 403. |
| AccessControl.VerifyIsOwnerOrAdmin | backend/user-service/middleware/basic-access-control.js:47-59 | The request passes exactly when the user is an admin or the route id is their own. Otherwise the answer is 403. |
| AccessControl.AdminGateIsStricter | backend/user-service/middleware/basic-access-control.js:39-59 | Passing the admin check implies passing the owner check for any id. A non-admin passes the owner check for their own id only. |
| AuthController.HandleLogin | backend/user-service/controller/auth-controller.js:7-59 | A missing email or password gives 400. An unknown email or a wrong password gives 401. Success gives 200 and sets the `accessToken` cookie to a token signed over the stored user's id, username, email, role and creation time for 12 hours. The cookie is httpOnly, secure, `SameSite=None`, at path `/`, and its max-age equals the token lifetime. Any throw gives 500, and only a 200 sets the cookie. |
| AuthController.UnknownEmailLooksLikeWrongPassword | backend/user-service/controller/auth-controller.js:11-19 | An unknown email and a wrong password produce the identical reply. |
| AuthController.HandleLogout | backend/user-service/controller/auth-controller.js:61-81 | No cookie token gives 401. A token that fails verification gives 403. Otherwise the answer is 200, and only then is the `accessToken` cookie cleared, httpOnly, at Express's default path `/`. |
| AuthController.LogoutClearsLoginCookie | backend/user-service/controller/auth-controller.js:35-75 | A successful logout clears the cookie a successful login set: the same name and the same path. In the browser's cookie store, login stores the token and logout then removes it, leaving every other cookie as it was. |
| AuthController.HandleVerifyToken | backend/user-service/controller/auth-controller.js:127-134 | The reply's message is `Token verified`, and the user attached by the access check sits under `data`. Nothing else is at the top level of the body. |
| AuthController.HandleForgotPassword | backend/user-service/controller/auth-controller.js:83-125 | No email gives 400, and an unknown user gives 404. The answer is 200 exactly when signing and the send of the reset mail both succeed. A mail is only ever addressed to the given email, carrying the reset URL built from a token signed for that user. |
| AuthController.ResetTokenCarriesOnlyId | backend/user-service/controller/auth-controller.js:97-103 | The reset URL is the fixed prefix followed by a token signed over a user id alone, for one hour. |
| PageGuard.Middleware | frontend/middleware.ts:24-60 | A public path passes. A missing token redirects to `/login`, a throwing validation fails the request, and a falsy one redirects to `/login`. A non-admin on an `/admin` path is redirected to `/403`, and everything else passes. |
| PageGuard.NextIff | frontend/middleware.ts:24-60 | A page is let through exactly when it is public, or when the token validates and the path is outside `/admin` or the user is an admin. |
| PageGuard.PrefixOfPublicIsNotPublic | frontend/middleware.ts:6-31 | Public routes match exactly: `/login/` is not public, so without a token it redirects to login. |
| PageGuard.AdminPrefixGuardsEveryExtension | frontend/middleware.ts:52-55 | The middleware function, once it runs, redirects a signed-in non-admin to `/403` for every path that begins with `/admin`. |
| PageGuard.Guarded | frontend/middleware.ts:63-65 | The matcher selects a path exactly when it begins with `/`, the rest starts with none of `api`, `_next/static` or `_next/image`, and the rest does not end in `.png`. |
| PageGuard.Guard | frontend/middleware.ts:24-65 | A request passes exactly when the matcher skips its path, the path is public, or the token validates and the path is outside `/admin` or the viewer is an admin. Any other outcome is the middleware's. |
| PageGuard.GuardedAdminPagesNeedAdmin | frontend/middleware.ts:52-65 | Every `/admin` path not ending in `.png` is selected by the matcher and refuses a signed-in non-admin. |
| PageGuard.AdminImagesSkipTheGuard | frontend/middleware.ts:63-65 | An `/admin` path ending in `.png` is skipped by the matcher and served to anyone. |
| PageGuard.ValidationAsWritten | frontend/middleware.ts:14-49 | As written, a failed verify-token request throws. A successful one never yields an admin role, because the role is read from the top of the reply body. |
| PageGuard.ValidationOf | frontend/middleware.ts:14-49 | A failed request throws, and a successful one yields the role of the user under the reply's `data`. |
| PageGuard.AdminLockedOutAsWritten | frontend/middleware.ts:40-55 | As written, an admin with a valid token is sent to `/403` from every selected `/admin` page. Reading the role under `data` lets the admin through. |
| ForgetPasswordForm.IsValid | frontend/components/forms/ForgetPasswordForm.tsx:31-41 | The form is valid exactly when the email is non-empty. The error map is then replaced wholesale: empty when valid, only `email: true` otherwise. |
| ForgetPasswordForm.HandleEmailOnChange | frontend/components/forms/ForgetPasswordForm.tsx:18-29 | The email takes the new value and `errors.email` becomes false. Every other error flag is kept. |
| ForgetPasswordForm.HandleSubmit | frontend/components/forms/ForgetPasswordForm.tsx:43-48 | `onSubmit` is called exactly once, with the email, when the email is non-empty, and never otherwise. |
| ForgetPasswordForm.SubmitFlagsIffNothingSent | frontend/components/forms/ForgetPasswordForm.tsx:31-64 | After a submit, the input shows its error exactly when nothing was submitted. |
| ForgetPasswordForm.TypingClearsErrorThenSubmits | frontend/components/forms/ForgetPasswordForm.tsx:18-48 | Typing after a failed submit hides the error. The next submit sends the typed value if it is non-empty, and nothing otherwise. |
| ForgetPasswordForm.SubmitIdempotentOnState | frontend/components/forms/ForgetPasswordForm.tsx:31-48 | A second submit with no typing in between leaves the same state and sends the same thing. |
| SiteConfig.Site | frontend/config/site.ts:3-59 | The navigation is Match, Questions, History in that order. The Questions link lies under `/admin` exactly when the viewer is an admin. |
| SiteConfig.OnlyQuestionsHrefDependsOnRole | frontend/config/site.ts:3-59 | The role changes only the Questions link: `/admin/questions` for an admin, `/questions` otherwise. |
| SiteConfig.NonAdminNavAvoidsAdminPages | frontend/config/site.ts:6-19 | No navigation link shown to a non-admin starts with `/admin`. |
| SiteConfig.NavLinksAreGuarded | frontend/config/site.ts:6-19 | The middleware's matcher selects every navigation link. |
| SiteConfig.NavLinksPassTheGuard | frontend/config/site.ts:6-19 | For a signed-in viewer of either role, the route guard lets every navigation link through, when it reads the role under the reply's `data`. |
| SiteConfig.AdminQuestionsLinkRefusedAsWritten | frontend/config/site.ts:13 | With the role read as the middleware is written, an admin's Questions link leads to `/403`. |

## Left out

- The Yjs document, awareness and Monaco binding are third-party internals, and the
  application adds no logic on top of them.
- The socket.io, express and mongoose setup and the code-execution proxy in
  `backend/collaboration-service/app.ts` are plumbing. The console logging is left out too.
- Goroutines, channels, the 30-second timeout and its timer store, MongoDB status
  updates, RabbitMQ publishing and the websocket broadcast of the matching service are
  concurrency and I/O. Only the decisions between them are modelled. The search result
  and the two status lookups arrive as parameters.
- The `models` package of the matching service is not part of this model. Languages and
  difficulty levels are modelled as named strings, and the JavaScript enum value is
  taken to be the string `"JavaScript"`.
- The route wiring, the React components and hooks, and the HTTP client wrapper are not
  modelled. They are framework glue with no decision of their own.
  `AuthController.HandleVerifyToken` models only the reply body of the verify-token
  endpoint.
- The bodies of bcrypt, JWT, nodemailer and the user repository are abstract parameters.
  A parameter's answer is taken to be a function of its arguments.
- Collaboration.OnConnection: a second `connection` event for an id already seen
  changes nothing. socket.io never reuses a socket id, so the source has no such case.
- Collaboration.OnAuthSettled: a token check that settles after the socket has already
  disconnected changes nothing (`SettleAfterDisconnectIsInert`). The source still registers
  handlers on the dead socket, but they can never fire.
- Matching.StartMatchingProcess: the `Question` field of the match result is left out.
  The source always fills it with an empty question. An error from the MongoDB status
  update is only logged by the source and does not change the outcome.
- AccessControl.VerifyAccessToken: the repository lookup never throws in the model. In
  the source such a throw rejects the verification callback and leaves the request
  unanswered.
- AuthController.HandleLogin: the successful reply carries the whole stored user record.
  The source passes the user through `formatUserResponse`, which is not part of this
  model.
- AuthController.LogoutClearsLoginCookie: the browser's cookie store is keyed by name and
  path only. Domains, expiry and the `secure` and `SameSite` attributes do not affect
  it. Express's `res.clearCookie` is taken to clear at path `/` when the options name no
  path, which is Express's documented default rather than code in this repository.
- AuthController.HandleForgotPassword: the mail's sender address and HTML body are not
  modelled. Only the recipient, subject and reset URL are.
- PageGuard.ValidationAsWritten: the HTTP client wrapper is not part of this model. It is
  taken to return the reply body under `response.data`, as the login hook that uses the
  same wrapper relies on. Whether the request carries the visitor's cookie when the
  middleware runs on the server is not modelled either.
- PageGuard.Guarded: the matcher is read as its regular expression applied to the whole
  path. Next.js's own handling of data routes, locales and trailing slashes around that
  pattern is left out.
- Collaboration.OnUserAgreedEnd: the tally is a set of distinct voters, so room and user
  ids are assumed not to name a member of `Object.prototype`. As written, a user id of
  `__proto__` is never counted (see Findings). A room id of `__proto__` makes the
  handler write the vote onto `Object.prototype` itself, which is not modelled.

## Findings

| source | as written | input that shows it | evidently intended | confidence | as-written member | corrected member |
|---|---|---|---|---|---|---|
| frontend/middleware.ts:49 | The role is read as `decodedAccessToken.isAdmin` from the verify-token reply body. That body holds the user under `data` (backend/user-service/controller/auth-controller.js:130), so the role reads as `undefined`. | An admin with a valid token opens `/admin/questions`, the link the navigation shows admins. | Read the role of the user under `data`, so that admins reach `/admin` pages. | low; not executed; rests on two things. The HTTP client wrapper must return the body under `response.data`: frontend/hooks/auth.ts:25 relies on that, but frontend/pages/_app.tsx:45 reads `res.data` as the user, which points the other way. The request must also carry the visitor's credentials: frontend/middleware.ts:16 forwards no cookie, unlike frontend/pages/_app.tsx:42-44. Without them the admin gets a failed validation, not `/403`. | PageGuard.AdminLockedOutAsWritten | PageGuard.ValidationOf |
| backend/collaboration-service/app.ts:128 | Votes are stored as keys of a plain object, and `Object.keys(...).length` counts them. A vote under `__proto__` hits the prototype setter and adds no key. | `user-agreed-end` from user `__proto__`, then from user `u`, in one room: both are told to wait. | Count every distinct voter, so that two different users finalise the room. | low; not executed; needs a client that sends `__proto__` as its user id | Collaboration.ProtoVoterIsNotCounted | Collaboration.TwoPartyHandshake |

=== FILE: access_control.dfy ===
/** The user service's request guards: where the access token is read from, how it
    is checked against the JWT library and the user repository, and the admin and
    owner-or-admin checks that follow. JWT verification and the repository lookup
    are parameters: `verify` gives the user id in a valid token, `findUserById` the
    stored user.
 */
module AccessControl {
  import opened Wrappers
  import opened Strings
  import opened Users

  const BearerPrefix: string := "Bearer "
  const AuthFailedMessage: string := "Authentication failed"
  const ForbiddenMessage: string := "Not authorized to access this resource"

  /** `req.user`, as attached by `verifyAccessToken`. */
  datatype RequestUser = RequestUser(id: string, username: string, email: string, isAdmin: bool)

  /** The outcome of `verifyAccessToken`: `next()` with `req.user` set, or an error response. */
  datatype AuthResult = Authenticated(user: RequestUser) | Rejected(status: int, message: string)

  /** The outcome of a role check: `next()` or an error response. */
  datatype Gate = Pass | Deny(status: int, message: string)

  /** The `token` variable of `verifyAccessToken`: the `accessToken` cookie when it is
      truthy; otherwise, for an `Authorization` header starting with `Bearer `, its second
      space-separated segment, which runs from after `Bearer ` to the next space or the
      end of the header; otherwise the (absent or empty) cookie value. */
  function RequestToken(cookie: Option<string>, authorization: Option<string>): (token: Option<string>)
    ensures Truthy(cookie) ==> token == cookie
    ensures !Truthy(cookie) && !(Truthy(authorization) && StartsWith(authorization.value, BearerPrefix)) ==>
      !Truthy(token)
    ensures !Truthy(cookie) && Truthy(authorization) && StartsWith(authorization.value, BearerPrefix) ==>
      && token.Some?
      && ' ' !in token.value
      && var rest := authorization.value[|BearerPrefix|..];
         && StartsWith(rest, token.value)
         && (rest == token.value || StartsWith(rest, token.value + " "))
  {
    if Truthy(cookie) then cookie
    else if Truthy(authorization) && StartsWith(authorization.value, BearerPrefix) then
      var h := authorization.value;
      var rest := h[|BearerPrefix|..];
      assert h == "Bearer" + " " + rest;
      SplitAfterFree("Bearer", " ", rest);
      SplitHead(rest, " ");
      NoOccurrenceNoChar(Split(rest, " ")[0], ' ');
      Some(Split(h, " ")[1])
    else cookie
  }

  /** A header `Bearer <t>` with no space inside `t` yields exactly `t` when no cookie
      token is present. */
  lemma BearerRoundTrip(cookie: Option<string>, t: string)
    requires !Truthy(cookie)
    requires ' ' !in t
    ensures RequestToken(cookie, Some(BearerPrefix + t)) == Some(t)
  {
    var h := BearerPrefix + t;
    assert h == "Bearer" + " " + t;
    assert h[|BearerPrefix|..] == t;
    SplitAfterFree("Bearer", " ", t);
    IndexOfFree(t, " ");
  }

  /** `verifyAccessToken`: 401 "Authentication failed" for a missing token, a token that
      fails verification, or a token whose user is not in the repository; otherwise
      `next()` with `req.user` taken from the stored user, not from the token. */
  function VerifyAccessToken(cookie: Option<string>, authorization: Option<string>,
                             verify: string -> Option<string>,
                             findUserById: string -> Option<UserRecord>): (r: AuthResult)
    ensures r.Authenticated? <==>
      var token := RequestToken(cookie, authorization);
      Truthy(token) && verify(token.value).Some? && findUserById(verify(token.value).value).Some?
    ensures r.Rejected? ==> r.status == 401 && r.message == AuthFailedMessage
    ensures r.Authenticated? ==>
      var db := findUserById(verify(RequestToken(cookie, authorization).value).value).value;
      r.user == RequestUser(db.id, db.username, db.email, db.isAdmin)
  {
    var token := RequestToken(cookie, authorization);
    if !Truthy(token) then Rejected(401, AuthFailedMessage)
    else match verify(token.value)
      case None => Rejected(401, AuthFailedMessage)
      case Some(userId) =>
        match findUserById(userId)
        case None => Rejected(401, AuthFailedMessage)
        case Some(db) => Authenticated(RequestUser(db.id, db.username, db.email, db.isAdmin))
  }

  /** A truthy cookie token wins: the `Authorization` header is then never consulted. */
  lemma CookieTakesPrecedence(cookie: Option<string>, h1: Option<string>, h2: Option<string>,
                              verify: string -> Option<string>, findUserById: string -> Option<UserRecord>)
    requires Truthy(cookie)
    ensures VerifyAccessToken(cookie, h1, verify, findUserById) == VerifyAccessToken(cookie, h2, verify, findUserById)
  {
  }

  /** `verifyIsAdmin` */
  function VerifyIsAdmin(user: RequestUser): (g: Gate)
    ensures g.Pass? <==> user.isAdmin
    ensures g.Deny? ==> g.status == 403 && g.message == ForbiddenMessage
  {
    if user.isAdmin then Pass else Deny(403, ForbiddenMessage)
  }

  /** `verifyIsOwnerOrAdmin`: the route's `:id` must be the caller's own id unless the caller is an admin. */
  function VerifyIsOwnerOrAdmin(user: RequestUser, paramsId: string): (g: Gate)
    ensures g.Pass? <==> user.isAdmin || paramsId == user.id
    ensures g.Deny? ==> g.status == 403 && g.message == ForbiddenMessage
  {
    if user.isAdmin then Pass
    else if paramsId == user.id then Pass
    else Deny(403, ForbiddenMessage)
  }

  /** Whoever passes the admin check passes the owner-or-admin check for every id, and a
      non-admin passes the latter for their own id only. */
  lemma AdminGateIsStricter(user: RequestUser, paramsId: string)
    ensures VerifyIsAdmin(user).Pass? ==> VerifyIsOwnerOrAdmin(user, paramsId).Pass?
    ensures !user.isAdmin ==> (VerifyIsOwnerOrAdmin(user, paramsId).Pass? <==> paramsId == user.id)
  {
  }
}

=== FILE: auth_controller.dfy ===
/** The status-code decisions of the user service's login, logout and forgot-password
    endpoints. The repository lookup, bcrypt, JWT signing and verification and the
    mailer are parameters; each may throw, which the handlers turn into a 500 carrying
    the error's message (logout's verification failure is a 403 instead).
 */
module AuthController {
  import opened Wrappers
  import opened Strings
  import opened Users
  import AccessControl

  /** The payloads the service signs: a session token and a password-reset token. */
  datatype Claims =
    | SessionClaims(id: string, username: string, email: string, isAdmin: bool, createdAt: int)
    | ResetClaims(id: string)

  /** `expiresIn: "12h"` and `expiresIn: "1h"`, in seconds. */
  const SessionLifetimeSeconds: int := 12 * 60 * 60
  const ResetLifetimeSeconds: int := 60 * 60
  /** The access-token cookie's `maxAge`, in milliseconds. */
  const CookieMaxAgeMs: int := 12 * 60 * 60 * 1000

  const MissingCredentialsMessage: string := "Missing email and/or password"
  const WrongCredentialsMessage: string := "Wrong email and/or password"
  const LoggedInMessage: string := "User logged in"
  const NoTokenMessage: string := "No access token provided"
  const InvalidTokenMessage: string := "Invalid access token"
  const LoggedOutMessage: string := "User logged out successfully"
  const EmailRequiredMessage: string := "Email is required"
  const UserNotFoundMessage: string := "User not found"
  const ResetSentMessage: string := "Password reset email sent"
  const ResetSubject: string := "Password Reset Request"
  const ResetUrlPrefix: string := "http://localhost:3000/reset-password?token="
  const TokenVerifiedMessage: string := "Token verified"

  /** The cookie the service keeps its session token in. */
  const AccessCookieName: string := "accessToken"
  /** The path Express gives a cleared cookie when the options name none. */
  const DefaultClearPath: string := "/"

  /** What a response does to a cookie: leave it, set it, or clear it (a cookie is
      identified by its name and path). */
  datatype CookieOp =
    | KeepCookie
    | SetCookie(name: string, value: string, maxAgeMs: int, httpOnly: bool, sameSite: string, secure: bool, path: string)
    | ClearCookie(name: string, httpOnly: bool, path: string)

  /** The browser's cookies for the service's site, keyed by name and path. */
  type CookieJar = map<(string, string), string>

  /** What the browser does with a response's cookie instruction. */
  function ApplyCookieOp(jar: CookieJar, op: CookieOp): (j: CookieJar)
    ensures op.KeepCookie? ==> j == jar
    ensures op.SetCookie? ==> (op.name, op.path) in j && j[(op.name, op.path)] == op.value
    ensures op.ClearCookie? ==> (op.name, op.path) !in j
    ensures forall k :: k in jar && !(op.SetCookie? || op.ClearCookie?) ==> k in j && j[k] == jar[k]
    ensures forall k :: k in jar && (op.SetCookie? || op.ClearCookie?) && k != (op.name, op.path) ==>
      k in j && j[k] == jar[k]
    ensures j.Keys <= jar.Keys + (if op.SetCookie? then {(op.name, op.path)} else {})
  {
    match op
    case KeepCookie => jar
    case SetCookie(name, value, _, _, _, _, path) => jar[(name, path) := value]
    case ClearCookie(name, _, path) => jar - {(name, path)}
  }

  /** The access token and the user returned in a successful login's body. */
  datatype LoginData = LoginData(accessToken: string, user: UserRecord)

  datatype Reply = Reply(status: int, message: string, cookie: CookieOp, login: Option<LoginData>)

  /** The reset mail handed to the transporter. */
  datatype Mail = Mail(to: string, subject: string, resetUrl: string)

  /** The payload signed at login: the stored user's identity, role and creation time. */
  function SessionClaimsOf(u: UserRecord): Claims {
    SessionClaims(u.id, u.username, u.email, u.isAdmin, u.createdAt)
  }

  function Plain(status: int, message: string): Reply {
    Reply(status, message, KeepCookie, None)
  }

  /** `handleLogin` */
  function HandleLogin(email: Option<string>, password: Option<string>,
                       findUserByEmail: string -> Attempt<Option<UserRecord>>,
                       compare: (string, string) -> Attempt<bool>,
                       sign: (Claims, int) -> Attempt<string>): (r: Reply)
    ensures r.status in {200, 400, 401, 500}
    ensures r.status == 400 <==> !(Truthy(email) && Truthy(password))
    ensures r.status == 400 ==> r.message == MissingCredentialsMessage
    ensures r.status == 401 <==>
      && Truthy(email) && Truthy(password)
      && findUserByEmail(email.value).Returned?
      && var found := findUserByEmail(email.value).value;
         || found.None?
         || (compare(password.value, found.value.password) == Returned(false))
    ensures r.status == 401 ==> r.message == WrongCredentialsMessage && r.cookie == KeepCookie
    ensures r.status == 200 <==>
      && Truthy(email) && Truthy(password)
      && findUserByEmail(email.value).Returned?
      && findUserByEmail(email.value).value.Some?
      && var u := findUserByEmail(email.value).value.value;
         && compare(password.value, u.password) == Returned(true)
         && sign(SessionClaimsOf(u), SessionLifetimeSeconds).Returned?
    ensures r.status == 200 ==>
      var u := findUserByEmail(email.value).value.value;
      var token := sign(SessionClaimsOf(u), SessionLifetimeSeconds).value;
      && r.login == Some(LoginData(token, u))
      && r.cookie == SetCookie(AccessCookieName, token, CookieMaxAgeMs, true, "None", true, "/")
      && r.cookie.maxAgeMs == SessionLifetimeSeconds * 1000
    ensures r.status != 200 ==> r.login.None? && r.cookie == KeepCookie
  {
    if !(Truthy(email) && Truthy(password)) then Plain(400, MissingCredentialsMessage)
    else match findUserByEmail(email.value)
      case Threw(m) => Plain(500, m)
      case Returned(None) => Plain(401, WrongCredentialsMessage)
      case Returned(Some(u)) =>
        match compare(password.value, u.password)
        case Threw(m) => Plain(500, m)
        case Returned(false) => Plain(401, WrongCredentialsMessage)
        case Returned(true) =>
          match sign(SessionClaimsOf(u), SessionLifetimeSeconds)
          case Threw(m) => Plain(500, m)
          case Returned(token) =>
            Reply(200, LoggedInMessage,
                  SetCookie(AccessCookieName, token, CookieMaxAgeMs, true, "None", true, "/"),
                  Some(LoginData(token, u)))
  }

  /** An unknown email and a wrong password give the very same reply, so a caller
      cannot tell which of the two it hit. */
  lemma UnknownEmailLooksLikeWrongPassword(email: string, password: string, u: UserRecord,
                                           noUser: string -> Attempt<Option<UserRecord>>,
                                           withUser: string -> Attempt<Option<UserRecord>>,
                                           compare: (string, string) -> Attempt<bool>,
                                           sign: (Claims, int) -> Attempt<string>)
    requires email != "" && password != ""
    requires noUser(email) == Returned(None)
    requires withUser(email) == Returned(Some(u))
    requires compare(password, u.password) == Returned(false)
    ensures HandleLogin(Some(email), Some(password), noUser, compare, sign) ==
            HandleLogin(Some(email), Some(password), withUser, compare, sign)
  {
  }

  /** `handleLogout`: `verify` is false when `jwt.verify` throws. */
  function HandleLogout(accessToken: Option<string>, verify: string -> bool): (r: Reply)
    ensures r.status == 401 <==> !Truthy(accessToken)
    ensures r.status == 403 <==> Truthy(accessToken) && !verify(accessToken.value)
    ensures r.status == 200 <==> Truthy(accessToken) && verify(accessToken.value)
    ensures r.cookie == (if r.status == 200 then ClearCookie(AccessCookieName, true, DefaultClearPath) else KeepCookie)
    ensures r.login.None?
  {
    if !Truthy(accessToken) then Plain(401, NoTokenMessage)
    else if !verify(accessToken.value) then Plain(403, InvalidTokenMessage)
    else Reply(200, LoggedOutMessage, ClearCookie(AccessCookieName, true, DefaultClearPath), None)
  }

  /** A successful logout removes the very cookie a successful login stored (same name,
      same path), and leaves every other cookie of the browser as it was. */
  lemma LogoutClearsLoginCookie(jar: CookieJar, email: Option<string>, password: Option<string>,
                                findUserByEmail: string -> Attempt<Option<UserRecord>>,
                                compare: (string, string) -> Attempt<bool>,
                                sign: (Claims, int) -> Attempt<string>,
                                accessToken: Option<string>, verify: string -> bool)
    requires HandleLogin(email, password, findUserByEmail, compare, sign).status == 200
    requires HandleLogout(accessToken, verify).status == 200
    ensures var setOp := HandleLogin(email, password, findUserByEmail, compare, sign).cookie;
      var clearOp := HandleLogout(accessToken, verify).cookie;
      && setOp.SetCookie? && clearOp.ClearCookie?
      && (setOp.name, setOp.path) == (clearOp.name, clearOp.path)
      && setOp.value in ApplyCookieOp(jar, setOp).Values
      && var after := ApplyCookieOp(ApplyCookieOp(jar, setOp), clearOp);
         && (setOp.name, setOp.path) !in after
         && forall k :: k in jar && k != (setOp.name, setOp.path) ==> k in after && after[k] == jar[k]
  {
  }

  /** `handleForgotPassword`: the reply and the mail handed to the transporter, if any. */
  function HandleForgotPassword(email: Option<string>,
                                findUserByEmail: string -> Attempt<Option<UserRecord>>,
                                sign: (Claims, int) -> Attempt<string>,
                                sendMail: Mail -> Attempt<()>): (r: (Reply, Option<Mail>))
    ensures r.0.status in {200, 400, 404, 500}
    ensures r.0.status == 400 <==> !Truthy(email)
    ensures r.0.status == 404 <==> Truthy(email) && findUserByEmail(email.value) == Returned(None)
    ensures r.0.status == 200 ==> r.0.message == ResetSentMessage
    ensures r.0.status == 200 <==>
      && Truthy(email)
      && findUserByEmail(email.value).Returned?
      && findUserByEmail(email.value).value.Some?
      && var u := findUserByEmail(email.value).value.value;
         && sign(ResetClaims(u.id), ResetLifetimeSeconds).Returned?
         && sendMail(Mail(email.value, ResetSubject,
                          ResetUrlPrefix + sign(ResetClaims(u.id), ResetLifetimeSeconds).value)).Returned?
    ensures r.1.Some? ==>
      && Truthy(email)
      && findUserByEmail(email.value).Returned? && findUserByEmail(email.value).value.Some?
      && var u := findUserByEmail(email.value).value.value;
         && sign(ResetClaims(u.id), ResetLifetimeSeconds).Returned?
         && r.1.value == Mail(email.value, ResetSubject,
                              ResetUrlPrefix + sign(ResetClaims(u.id), ResetLifetimeSeconds).value)
    ensures r.0.status == 200 ==> r.1.Some?
    ensures r.0.cookie == KeepCookie && r.0.login.None?
  {
    if !Truthy(email) then (Plain(400, EmailRequiredMessage), None)
    else match findUserByEmail(email.value)
      case Threw(m) => (Plain(500, m), None)
      case Returned(None) => (Plain(404, UserNotFoundMessage), None)
      case Returned(Some(u)) =>
        match sign(ResetClaims(u.id), ResetLifetimeSeconds)
        case Threw(m) => (Plain(500, m), None)
        case Returned(resetToken) =>
          var mail := Mail(email.value, ResetSubject, ResetUrlPrefix + resetToken);
          match sendMail(mail)
          case Threw(m) => (Plain(500, m), Some(mail))
          case Returned(_) => (Plain(200, ResetSentMessage), Some(mail))
  }

  /** The body of the verify-token reply: a message, and under `data` the user that
      `verifyAccessToken` attached to the request. */
  datatype VerifyReply = VerifyReply(message: string, data: AccessControl.RequestUser)

  /** `handleVerifyToken`: reading `req.user` cannot throw, so its catch branch is dead. */
  function HandleVerifyToken(user: AccessControl.RequestUser): (r: VerifyReply)
    ensures r.message == TokenVerifiedMessage
    ensures r.data == user
  {
    VerifyReply(TokenVerifiedMessage, user)
  }

  /** A reset link carries a token signed over the user id alone, valid for one hour. */
  lemma ResetTokenCarriesOnlyId(email: Option<string>,
                                findUserByEmail: string -> Attempt<Option<UserRecord>>,
                                sign: (Claims, int) -> Attempt<string>,
                                sendMail: Mail -> Attempt<()>)
    requires HandleForgotPassword(email, findUserByEmail, sign, sendMail).1.Some?
    ensures var mail := HandleForgotPassword(email, findUserByEmail, sign, sendMail).1.value;
      exists id :: StartsWith(mail.resetUrl, ResetUrlPrefix) &&
        sign(ResetClaims(id), ResetLifetimeSeconds) == Returned(mail.resetUrl[|ResetUrlPrefix|..])
  {
  }
}

=== FILE: collaboration.dfy ===
/** The collaboration service's real-time gateway: how a socket connection is
    admitted (access token from the handshake cookie, then an external
    authentication check), and the three handlers an admitted socket gets:
    joining a room, voting to end the session, and disconnecting.

    The server is a state machine: each input is one socket event, and each
    handler is a pure function from the server state to the next state and the
    actions it performs (emissions to one socket or to a room, forced disconnects).
 */
module Collaboration {
  import opened Wrappers
  import opened Strings

  type SocketId = string
  type RoomId = string
  type UserId = string

  /** The user `authenticateAccessToken` resolves to; it is stored on the socket and never read again. */
  datatype Identity = Identity(id: string, username: string)

  /** Where a connection is in its life: waiting for the token check, admitted with
      its handlers registered, or closed. */
  datatype Phase = Authenticating(token: string) | Admitted(user: Identity) | Closed

  /** `socket.data.roomId` and `socket.data.username`, set together by `join-room`. */
  datatype Seat = Seat(roomId: RoomId, username: string)

  datatype Conn = Conn(phase: Phase, seat: Option<Seat>)

  /** The whole server: every connection seen so far, socket.io's room membership,
      and the end-of-session votes (`usersAgreedEnd`, one set of voters per room). */
  datatype Server = Server(
    conns: map<SocketId, Conn>,
    members: map<RoomId, set<SocketId>>,
    agreed: map<RoomId, set<UserId>>)

  /** The application-level events the server emits. */
  datatype Event =
    | Error(errorMsg: string)
    | RoomJoined(roomId: RoomId)
    | UserJoin(username: string)
    | UserDisconnect(username: string)
    | BothUsersAgreedEnd(roomId: RoomId)
    | WaitingForOtherUserEnd(roomId: RoomId)

  /** `socket.emit` reaches one socket; `io.to(roomId).emit` reaches the room's members. */
  datatype Target = ToSocket(socket: SocketId) | ToRoom(roomId: RoomId)

  datatype Action = Emit(to: Target, event: Event) | ForceDisconnect(socket: SocketId)

  /** One socket event. `AuthSettled` is the settling of `authenticateAccessToken`:
      `Some(user)` when it resolves, `None` when it rejects. */
  datatype Input =
    | Connection(socket: SocketId, cookieHeader: Option<string>)
    | AuthSettled(socket: SocketId, user: Option<Identity>)
    | JoinRoom(socket: SocketId, roomId: RoomId, username: string)
    | UserAgreedEnd(socket: SocketId, roomId: RoomId, userId: UserId)
    | Disconnected(socket: SocketId)

  datatype Reaction = Reaction(next: Server, actions: seq<Action>)

  const AccessTokenPrefix: string := "accessToken="
  const NoTokenMessage: string := "Not authorized, no access token"
  const TokenFailedMessage: string := "Not authorized, access token failed"

  const Init: Server := Server(map[], map[], map[])

  // ---------------------------------------------------------------------------
  // Access token from the handshake cookie header
  // ---------------------------------------------------------------------------

  /** The first cookie that starts with `accessToken=` (`Array.prototype.find`). */
  function FirstAccessCookie(cookies: seq<string>): (r: Option<string>)
    ensures r.Some? ==>
      exists i :: 0 <= i < |cookies| && cookies[i] == r.value &&
        forall j :: 0 <= j < i ==> !StartsWith(cookies[j], AccessTokenPrefix)
    ensures r.Some? ==> StartsWith(r.value, AccessTokenPrefix)
    ensures r.None? <==> forall i :: 0 <= i < |cookies| ==> !StartsWith(cookies[i], AccessTokenPrefix)
  {
    if |cookies| == 0 then None
    else if StartsWith(cookies[0], AccessTokenPrefix) then Some(cookies[0])
    else
      var r := FirstAccessCookie(cookies[1..]);
      assert forall i :: 1 <= i < |cookies| ==> cookies[i] == cookies[1..][i - 1];
      assert r.Some? ==>
        exists i :: 0 <= i < |cookies| && cookies[i] == r.value &&
          forall j :: 0 <= j < i ==> !StartsWith(cookies[j], AccessTokenPrefix) by {
        if r.Some? {
          var i :| 0 <= i < |cookies[1..]| && cookies[1..][i] == r.value &&
            forall j :: 0 <= j < i ==> !StartsWith(cookies[1..][j], AccessTokenPrefix);
          assert cookies[i + 1] == r.value;
          assert forall j :: 0 <= j < i + 1 ==> !StartsWith(cookies[j], AccessTokenPrefix) by {
            forall j | 0 <= j < i + 1 ensures !StartsWith(cookies[j], AccessTokenPrefix) {
              if j > 0 { assert cookies[j] == cookies[1..][j - 1]; }
            }
          }
        }
      }
      r
  }

  /** The access token of a handshake: split the cookie header at `"; "`, take the first
      cookie that starts with `accessToken=`, split it at `=` and keep the second piece.
      A missing header or a missing cookie gives no token. Such a cookie always has a
      second piece (`AccessCookieShape`), possibly empty, so the token is then found:
      the rest of the cookie after `accessToken=`, cut at the next `=`. */
  function CookieToken(header: Option<string>): (r: Option<string>)
    ensures r.Some? <==>
      header.Some? && exists c :: c in Split(header.value, "; ") && StartsWith(c, AccessTokenPrefix)
    ensures r.Some? ==>
      var t := r.value;
      var c := FirstAccessCookie(Split(header.value, "; ")).value;
      && '=' !in t
      && (c == AccessTokenPrefix + t || StartsWith(c, AccessTokenPrefix + t + "="))
      && (exists c :: c in Split(header.value, "; ") && StartsWith(c, AccessTokenPrefix + t))
  {
    match header
    case None => None
    case Some(h) =>
      var cookies := Split(h, "; ");
      match FirstAccessCookie(cookies)
      case None =>
        assert forall c :: c in cookies ==> !StartsWith(c, AccessTokenPrefix) by {
          forall c | c in cookies ensures !StartsWith(c, AccessTokenPrefix) {
            var i :| 0 <= i < |cookies| && cookies[i] == c;
          }
        }
        None
      case Some(c) =>
        AccessCookieShape(c);
        assert c in cookies by {
          var i :| 0 <= i < |cookies| && cookies[i] == c;
        }
        Some(Split(c, "=")[1])
  }

  /** An `accessToken=` cookie always splits into at least two pieces at `=`; the second
      is the text after the prefix up to the next `=` or the end. */
  lemma AccessCookieShape(c: string)
    requires StartsWith(c, AccessTokenPrefix)
    ensures |Split(c, "=")| >= 2
    ensures var t := Split(c, "=")[1];
      && '=' !in t
      && (c == AccessTokenPrefix + t || StartsWith(c, AccessTokenPrefix + t + "="))
      && StartsWith(c, AccessTokenPrefix + t)
  {
    var rest := c[|AccessTokenPrefix|..];
    AccessCookieSplit(c);
    FirstPieceShape(rest);
    PieceAfterPrefix(c, AccessTokenPrefix, Split(rest, "=")[0]);
  }

  /** When the text after prefix `p` is `t`, or `t` followed by `=`, then so is the whole
      string after `p`, seen from the front. */
  lemma PieceAfterPrefix(c: string, p: string, t: string)
    requires StartsWith(c, p)
    requires c[|p|..] == t || StartsWith(c[|p|..], t + "=")
    ensures c == p + t || StartsWith(c, p + t + "=")
    ensures StartsWith(c, p + t)
  {
    var rest := c[|p|..];
    assert c == p + rest;
    PrefixExtend(p, rest, t);
    if rest != t {
      PrefixExtend(p, rest, t + "=");
      assert p + (t + "=") == p + t + "=";
      assert StartsWith(rest, t);
    }
  }

  /** Splitting an `accessToken=` cookie at `=` peels off `accessToken` first. */
  lemma AccessCookieSplit(c: string)
    requires StartsWith(c, AccessTokenPrefix)
    ensures Split(c, "=") == ["accessToken"] + Split(c[|AccessTokenPrefix|..], "=")
  {
    var rest := c[|AccessTokenPrefix|..];
    assert c == "accessToken" + "=" + rest;
    SplitAfterFree("accessToken", "=", rest);
  }

  /** The first piece of a split at `=` holds no `=` and is all of the text or is followed by `=`. */
  lemma FirstPieceShape(rest: string)
    ensures '=' !in Split(rest, "=")[0]
    ensures Split(rest, "=")[0] == rest || StartsWith(rest, Split(rest, "=")[0] + "=")
  {
    SplitHead(rest, "=");
    NoOccurrenceNoChar(Split(rest, "=")[0], '=');
  }

  /** Round trip: a cookie header written as `; `-separated cookies whose first
      `accessToken=` cookie (at index `i`) carries `t` yields exactly `t`, provided no
      cookie holds a `;` and `t` holds no `=`. */
  lemma CookieTokenRoundTrip(cookies: seq<string>, i: nat, t: string)
    requires i < |cookies| && cookies[i] == AccessTokenPrefix + t
    requires forall k :: 0 <= k < |cookies| ==> ';' !in cookies[k]
    requires forall k :: 0 <= k < i ==> !StartsWith(cookies[k], AccessTokenPrefix)
    requires '=' !in t
    ensures CookieToken(Some(Join(cookies, "; "))) == Some(t)
  {
    assert "; "[0] == ';';
    SplitJoin(cookies, "; ");
    FirstCookieAt(cookies, i);
    SplitAccessCookie(t);
  }

  lemma {:induction false} FirstCookieAt(cookies: seq<string>, i: nat)
    requires i < |cookies| && StartsWith(cookies[i], AccessTokenPrefix)
    requires forall k :: 0 <= k < i ==> !StartsWith(cookies[k], AccessTokenPrefix)
    ensures FirstAccessCookie(cookies) == Some(cookies[i])
    decreases i
  {
    if i > 0 {
      FirstCookieAt(cookies[1..], i - 1);
    }
  }

  lemma SplitAccessCookie(t: string)
    requires '=' !in t
    ensures Split(AccessTokenPrefix + t, "=") == ["accessToken", t]
  {
    assert AccessTokenPrefix + t == "accessToken" + "=" + t;
    SplitAfterFree("accessToken", "=", t);
    IndexOfFree(t, "=");
  }

  // ---------------------------------------------------------------------------
  // Server state helpers
  // ---------------------------------------------------------------------------

  /** The votes recorded for a room; a room nobody voted in has none. */
  function Tally(s: Server, roomId: RoomId): set<UserId> {
    if roomId in s.agreed then s.agreed[roomId] else {}
  }

  function Members(s: Server, roomId: RoomId): set<SocketId> {
    if roomId in s.members then s.members[roomId] else {}
  }

  /** socket.io puts every socket, on connecting and before any handler runs, in a room
      named by its own id, and takes it out on disconnecting: the room `r` holds the
      live socket whose id is `r`, if there is one, whatever its phase. */
  function OwnIdRoom(s: Server, r: RoomId): set<SocketId> {
    if r in s.conns && !s.conns[r].phase.Closed? then {r} else {}
  }

  /** The sockets an emission reaches: a room's joined members and the live socket
      named like the room. */
  function Recipients(s: Server, to: Target): set<SocketId> {
    match to
    case ToSocket(id) => {id}
    case ToRoom(r) => Members(s, r) + OwnIdRoom(s, r)
  }

  /** The socket has passed authentication, so its event handlers are registered. */
  predicate Handles(s: Server, id: SocketId) {
    id in s.conns && s.conns[id].phase.Admitted?
  }

  /** socket.io removes a disconnecting socket from every room before `disconnect` fires. */
  function LeaveAll(members: map<RoomId, set<SocketId>>, id: SocketId): (m: map<RoomId, set<SocketId>>)
    ensures m.Keys == members.Keys
    ensures forall r :: r in m ==> m[r] == members[r] - {id}
  {
    map r | r in members :: members[r] - {id}
  }

  // ---------------------------------------------------------------------------
  // Handlers
  // ---------------------------------------------------------------------------

  /** A new connection. Without a (non-empty) access token in the cookie header the
      socket gets one `error` and is disconnected with no handlers; otherwise it waits
      for the token check. */
  function OnConnection(s: Server, id: SocketId, header: Option<string>): (r: Reaction)
    ensures r.next.members == s.members && r.next.agreed == s.agreed
    ensures id !in s.conns && !Truthy(CookieToken(header)) ==>
      && id in r.next.conns
      && r.actions == [Emit(ToSocket(id), Error(NoTokenMessage)), ForceDisconnect(id)]
      && r.next.conns[id].phase == Closed
    ensures id !in s.conns && Truthy(CookieToken(header)) ==>
      && id in r.next.conns
      && r.actions == []
      && r.next.conns[id] == Conn(Authenticating(CookieToken(header).value), None)
    ensures forall k :: k in s.conns && k != id ==> k in r.next.conns && r.next.conns[k] == s.conns[k]
    ensures id !in s.conns ==> !Handles(r.next, id)
    ensures id in s.conns ==> r == Reaction(s, [])
  {
    if id in s.conns then
      // socket.io never reuses a socket id; a repeated connection event changes nothing
      Reaction(s, [])
    else
      var token := CookieToken(header);
      if !Truthy(token) then
        Reaction(s.(conns := s.conns[id := Conn(Closed, None)]),
                 [Emit(ToSocket(id), Error(NoTokenMessage)), ForceDisconnect(id)])
      else
        Reaction(s.(conns := s.conns[id := Conn(Authenticating(token.value), None)]), [])
  }

  /** The token check settles: success registers the handlers, failure emits one
      `error` and disconnects. Each connection's check settles once, so a settle for a
      socket no longer waiting on it changes nothing. */
  function OnAuthSettled(s: Server, id: SocketId, user: Option<Identity>): (r: Reaction)
    ensures r.next.members == s.members && r.next.agreed == s.agreed
    ensures Handles(r.next, id) <==> Handles(s, id) || (id in s.conns && s.conns[id].phase.Authenticating? && user.Some?)
    ensures id in s.conns && s.conns[id].phase.Authenticating? && user.None? ==>
      r.actions == [Emit(ToSocket(id), Error(TokenFailedMessage)), ForceDisconnect(id)]
    ensures user.Some? ==> r.actions == []
    ensures id in s.conns && s.conns[id].phase.Authenticating? && user.Some? ==>
      id in r.next.conns && r.next.conns[id] == Conn(Admitted(user.value), None)
    ensures id in s.conns && s.conns[id].phase.Authenticating? && user.None? ==>
      id in r.next.conns && r.next.conns[id].phase.Closed?
    ensures !(id in s.conns && s.conns[id].phase.Authenticating?) ==> r == Reaction(s, [])
    ensures forall k :: k in s.conns && k != id ==> k in r.next.conns && r.next.conns[k] == s.conns[k]
  {
    if id in s.conns && s.conns[id].phase.Authenticating? then
      match user
      case Some(u) =>
        Reaction(s.(conns := s.conns[id := Conn(Admitted(u), None)]), [])
      case None =>
        Reaction(s.(conns := s.conns[id := Conn(Closed, None)]),
                 [Emit(ToSocket(id), Error(TokenFailedMessage)), ForceDisconnect(id)])
    else
      Reaction(s, [])
  }

  /** `join-room`: record the seat, join the room, tell the joiner `room-joined`,
      then tell the whole room, the joiner included, `user-join`. */
  function OnJoinRoom(s: Server, id: SocketId, roomId: RoomId, username: string): (r: Reaction)
    ensures !Handles(s, id) ==> r == Reaction(s, [])
    ensures Handles(s, id) ==>
      && r.actions == [Emit(ToSocket(id), RoomJoined(roomId)), Emit(ToRoom(roomId), UserJoin(username))]
      && id in Recipients(r.next, ToRoom(roomId))
      && Members(r.next, roomId) == Members(s, roomId) + {id}
      && id in r.next.conns
      && r.next.conns[id].seat == Some(Seat(roomId, username))
      && Handles(r.next, id)
    ensures r.next.agreed == s.agreed
    ensures forall q :: q != roomId ==> Members(r.next, q) == Members(s, q)
    ensures forall k :: k in s.conns && k != id ==> k in r.next.conns && r.next.conns[k] == s.conns[k]
  {
    if !Handles(s, id) then Reaction(s, [])
    else
      var c := s.conns[id];
      Reaction(
        s.(conns := s.conns[id := c.(seat := Some(Seat(roomId, username)))],
           members := s.members[roomId := Members(s, roomId) + {id}]),
        [Emit(ToSocket(id), RoomJoined(roomId)), Emit(ToRoom(roomId), UserJoin(username))])
  }

  /** `user-agreed-end`: add the voter to the room's tally (created on first touch).
      Exactly two distinct voters finalise the room: `both-users-agreed-end` goes to the
      room and the tally is emptied. Any other vote emits `waiting-for-other-user-end`. */
  function OnUserAgreedEnd(s: Server, id: SocketId, roomId: RoomId, userId: UserId): (r: Reaction)
    ensures !Handles(s, id) ==> r == Reaction(s, [])
    ensures Handles(s, id) ==> |r.actions| == 1
    ensures Handles(s, id) ==>
      (r.actions[0] == Emit(ToRoom(roomId), BothUsersAgreedEnd(roomId)) <==> |Tally(s, roomId) + {userId}| == 2)
    ensures Handles(s, id) && |Tally(s, roomId) + {userId}| == 2 ==> roomId in r.next.agreed && Tally(r.next, roomId) == {}
    ensures Handles(s, id) && |Tally(s, roomId) + {userId}| != 2 ==>
      && r.actions == [Emit(ToRoom(roomId), WaitingForOtherUserEnd(roomId))]
      && Tally(r.next, roomId) == Tally(s, roomId) + {userId}
    ensures forall q :: q != roomId ==> Tally(r.next, q) == Tally(s, q)
    ensures r.next.conns == s.conns && r.next.members == s.members
  {
    if !Handles(s, id) then Reaction(s, [])
    else
      var tally := Tally(s, roomId) + {userId};
      if |tally| == 2 then
        Reaction(s.(agreed := s.agreed[roomId := {}]), [Emit(ToRoom(roomId), BothUsersAgreedEnd(roomId))])
      else
        Reaction(s.(agreed := s.agreed[roomId := tally]), [Emit(ToRoom(roomId), WaitingForOtherUserEnd(roomId))])
  }

  /** `disconnect`: the socket leaves every room; if it had joined a room (a truthy
      `socket.data.roomId`), the remaining members hear `user-disconnect`. */
  function OnDisconnect(s: Server, id: SocketId): (r: Reaction)
    ensures !(id in s.conns && !s.conns[id].phase.Closed?) ==> r == Reaction(s, [])
    ensures |r.actions| <= 1
    ensures |r.actions| == 1 <==>
      Handles(s, id) && s.conns[id].seat.Some? && s.conns[id].seat.value.roomId != ""
    ensures |r.actions| == 1 ==>
      var seat := s.conns[id].seat.value;
      && r.actions[0] == Emit(ToRoom(seat.roomId), UserDisconnect(seat.username))
      && id !in Recipients(r.next, r.actions[0].to)
      && Members(r.next, seat.roomId) == Members(s, seat.roomId) - {id}
    ensures id in s.conns ==> !Handles(r.next, id)
    ensures id in s.conns ==> id in r.next.conns && r.next.conns[id] == s.conns[id].(phase := Closed)
    ensures forall q :: Members(r.next, q) <= Members(s, q)
    ensures Handles(s, id) ==> forall q :: Members(r.next, q) == Members(s, q) - {id}
    ensures !Handles(s, id) ==> r.next.members == s.members
    ensures forall k :: k in s.conns && k != id ==> k in r.next.conns && r.next.conns[k] == s.conns[k]
    ensures r.next.agreed == s.agreed
  {
    if id !in s.conns then Reaction(s, [])
    else
      var c := s.conns[id];
      match c.phase
      case Closed => Reaction(s, [])
      case Authenticating(_) =>
        Reaction(s.(conns := s.conns[id := c.(phase := Closed)]), [])
      case Admitted(_) =>
        var next := s.(conns := s.conns[id := c.(phase := Closed)], members := LeaveAll(s.members, id));
        if c.seat.Some? && c.seat.value.roomId != "" then
          Reaction(next, [Emit(ToRoom(c.seat.value.roomId), UserDisconnect(c.seat.value.username))])
        else
          Reaction(next, [])
  }

  function Step(s: Server, input: Input): Reaction {
    match input
    case Connection(id, header) => OnConnection(s, id, header)
    case AuthSettled(id, user) => OnAuthSettled(s, id, user)
    case JoinRoom(id, roomId, username) => OnJoinRoom(s, id, roomId, username)
    case UserAgreedEnd(id, roomId, userId) => OnUserAgreedEnd(s, id, roomId, userId)
    case Disconnected(id) => OnDisconnect(s, id)
  }

  /** Feed a sequence of inputs to the server, collecting every action in order. */
  function Run(s: Server, inputs: seq<Input>): Reaction
    decreases |inputs|
  {
    if |inputs| == 0 then Reaction(s, [])
    else
      var first := Step(s, inputs[0]);
      var rest := Run(first.next, inputs[1..]);
      Reaction(rest.next, first.actions + rest.actions)
  }

  // ---------------------------------------------------------------------------
  // Invariants and properties
  // ---------------------------------------------------------------------------

  /** Between events no room has more than one pending vote. */
  predicate TallyBounded(s: Server) {
    forall r :: r in s.agreed ==> |s.agreed[r]| <= 1
  }

  /** Only sockets that passed authentication have joined a room. This covers the rooms
      joined through `join-room`; the room named by a socket's own id is `OwnIdRoom`. */
  predicate MembersAdmitted(s: Server) {
    forall r, k :: r in s.members && k in s.members[r] ==> Handles(s, k)
  }

  predicate Inv(s: Server) {
    TallyBounded(s) && MembersAdmitted(s)
  }

  lemma StepPreservesInv(s: Server, input: Input)
    requires Inv(s)
    ensures Inv(Step(s, input).next)
  {
    match input
    case Connection(id, header) => ConnectionPreservesInv(s, id, header);
    case AuthSettled(id, user) => AuthSettledPreservesInv(s, id, user);
    case JoinRoom(id, roomId, username) => JoinRoomPreservesInv(s, id, roomId, username);
    case UserAgreedEnd(id, roomId, userId) => UserAgreedEndPreservesInv(s, id, roomId, userId);
    case Disconnected(id) => DisconnectPreservesInv(s, id);
  }

  lemma ConnectionPreservesInv(s: Server, id: SocketId, header: Option<string>)
    requires Inv(s)
    ensures Inv(OnConnection(s, id, header).next)
  {
    var n := OnConnection(s, id, header).next;
    forall r, k | r in n.members && k in n.members[r] ensures Handles(n, k) {
      assert Handles(s, k);
    }
  }

  lemma AuthSettledPreservesInv(s: Server, id: SocketId, user: Option<Identity>)
    requires Inv(s)
    ensures Inv(OnAuthSettled(s, id, user).next)
  {
    var n := OnAuthSettled(s, id, user).next;
    forall r, k | r in n.members && k in n.members[r] ensures Handles(n, k) {
      assert Handles(s, k);
    }
  }

  lemma JoinRoomPreservesInv(s: Server, id: SocketId, roomId: RoomId, username: string)
    requires Inv(s)
    ensures Inv(OnJoinRoom(s, id, roomId, username).next)
  {
    var n := OnJoinRoom(s, id, roomId, username).next;
    forall r, k | r in n.members && k in n.members[r] ensures Handles(n, k) {
      if k != id { assert Handles(s, k); }
    }
  }

  lemma UserAgreedEndPreservesInv(s: Server, id: SocketId, roomId: RoomId, userId: UserId)
    requires Inv(s)
    ensures Inv(OnUserAgreedEnd(s, id, roomId, userId).next)
  {
    var n := OnUserAgreedEnd(s, id, roomId, userId).next;
    if Handles(s, id) {
      var t := Tally(s, roomId) + {userId};
      assert |Tally(s, roomId)| <= 1;
      assert |t| <= 2 by {
        if userId !in Tally(s, roomId) {
          assert |t| == |Tally(s, roomId)| + 1;
        } else {
          assert t == Tally(s, roomId);
        }
      }
      forall r | r in n.agreed ensures |n.agreed[r]| <= 1 {
        if r != roomId {
          assert n.agreed[r] == Tally(s, r);
        } else if |t| != 2 {
          assert n.agreed[r] == t;
        } else {
          assert n.agreed[r] == {};
        }
      }
      assert n.conns == s.conns && n.members == s.members;
      forall r, k | r in n.members && k in n.members[r] ensures Handles(n, k) {
        assert Handles(s, k);
      }
    }
  }

  lemma DisconnectPreservesInv(s: Server, id: SocketId)
    requires Inv(s)
    ensures Inv(OnDisconnect(s, id).next)
  {
    var n := OnDisconnect(s, id).next;
    forall r, k | r in n.members && k in n.members[r] ensures Handles(n, k) {
      assert k in Members(n, r) && k in Members(s, r);
      assert Handles(s, k);
    }
  }


  /** The invariants survive any sequence of events. */
  lemma {:induction false} RunPreservesInv(s: Server, inputs: seq<Input>)
    requires Inv(s)
    ensures Inv(Run(s, inputs).next)
    decreases |inputs|
  {
    if |inputs| > 0 {
      StepPreservesInv(s, inputs[0]);
      RunPreservesInv(Step(s, inputs[0]).next, inputs[1..]);
    }
  }

  /** The server starts with no connection, no room and no vote. */
  lemma InitInv()
    ensures Inv(Init)
  {
  }

  /** Every state the server reaches from start-up keeps each tally at most one vote
      and admits only checked sockets to rooms. */
  lemma ReachableInv(inputs: seq<Input>)
    ensures Inv(Run(Init, inputs).next)
  {
    InitInv();
    RunPreservesInv(Init, inputs);
  }

  /** Under the invariant, a vote finalises the room exactly when one *other* user
      had already voted there; a repeated vote by the same user only waits, and
      leaves the tally as it was. */
  lemma VoteFinalisesIffOtherVoted(s: Server, id: SocketId, roomId: RoomId, userId: UserId)
    requires Inv(s) && Handles(s, id)
    ensures var r := OnUserAgreedEnd(s, id, roomId, userId);
      (r.actions == [Emit(ToRoom(roomId), BothUsersAgreedEnd(roomId))]) <==>
      (exists other :: other != userId && Tally(s, roomId) == {other})
    ensures userId in Tally(s, roomId) ==>
      var r := OnUserAgreedEnd(s, id, roomId, userId);
      && Tally(r.next, roomId) == Tally(s, roomId)
      && r.actions == [Emit(ToRoom(roomId), WaitingForOtherUserEnd(roomId))]
  {
    var t := Tally(s, roomId);
    assert |t| <= 1;
    if |t| == 1 {
      var v :| v in t;
      assert t == {v} by {
        var rest := t - {v};
        assert t == rest + {v};
        assert |rest| == 0;
      }
      if v != userId {
        assert |{v} + {userId}| == 2;
      } else {
        assert t + {userId} == t;
      }
    } else {
      assert t == {};
      assert |t + {userId}| == 1;
      forall other | other != userId ensures t != {other} {}
    }
  }

  /** The two-party handshake from an empty tally: a first vote waits; a second vote by
      another user finalises the room and leaves its tally empty; the same user voting
      twice never finalises. */
  lemma TwoPartyHandshake(s: Server, a: SocketId, b: SocketId, roomId: RoomId, u1: UserId, u2: UserId)
    requires Inv(s) && Handles(s, a) && Handles(s, b)
    requires Tally(s, roomId) == {}
    ensures var r1 := Run(s, [UserAgreedEnd(a, roomId, u1), UserAgreedEnd(b, roomId, u2)]);
      u1 != u2 ==>
        && r1.actions == [Emit(ToRoom(roomId), WaitingForOtherUserEnd(roomId)),
                          Emit(ToRoom(roomId), BothUsersAgreedEnd(roomId))]
        && Tally(r1.next, roomId) == {}
    ensures var r2 := Run(s, [UserAgreedEnd(a, roomId, u1), UserAgreedEnd(a, roomId, u1)]);
      && r2.actions == [Emit(ToRoom(roomId), WaitingForOtherUserEnd(roomId)),
                        Emit(ToRoom(roomId), WaitingForOtherUserEnd(roomId))]
      && Tally(r2.next, roomId) == {u1}
  {
    var v1 := UserAgreedEnd(a, roomId, u1);
    var first := Step(s, v1);
    assert |Tally(s, roomId) + {u1}| == 1;
    assert Tally(first.next, roomId) == {u1};
    StepPreservesInv(s, v1);
    VoteFinalisesIffOtherVoted(first.next, b, roomId, u2);
    VoteFinalisesIffOtherVoted(first.next, a, roomId, u1);
    RunTwo(s, v1, UserAgreedEnd(b, roomId, u2));
    RunTwo(s, v1, v1);
    if u1 != u2 {
      assert |{u1} + {u2}| == 2;
    }
  }

  /** A vote after the room was finalised starts a fresh tally: it waits, and the tally
      then holds that voter alone, whoever voted before. */
  lemma VoteAfterFinaliseStartsFresh(s: Server, a: SocketId, b: SocketId, roomId: RoomId, u: UserId, v: UserId)
    requires Handles(s, a) && Handles(s, b)
    requires |Tally(s, roomId) + {u}| == 2
    ensures var done := OnUserAgreedEnd(s, a, roomId, u);
      var again := OnUserAgreedEnd(done.next, b, roomId, v);
      && done.actions == [Emit(ToRoom(roomId), BothUsersAgreedEnd(roomId))]
      && again.actions == [Emit(ToRoom(roomId), WaitingForOtherUserEnd(roomId))]
      && Tally(again.next, roomId) == {v}
  {
  }

  /** Two admitted users join an empty room and then agree to end: each joiner is told
      `room-joined` and the room hears each `user-join`; the first vote waits, the second
      finalises, and the room keeps both members with an empty tally. */
  lemma JoinThenAgreeScenario(s: Server, a: SocketId, b: SocketId, ua: UserId, ub: UserId)
    requires a != b && ua != ub
    requires Handles(s, a) && Handles(s, b)
    requires Members(s, "R1") == {} && Tally(s, "R1") == {}
    ensures var joined := Run(s, [JoinRoom(a, "R1", "A"), JoinRoom(b, "R1", "B")]);
      var voted := Run(joined.next, [UserAgreedEnd(a, "R1", ua), UserAgreedEnd(b, "R1", ub)]);
      && joined.actions + voted.actions ==
           [Emit(ToSocket(a), RoomJoined("R1")), Emit(ToRoom("R1"), UserJoin("A")),
            Emit(ToSocket(b), RoomJoined("R1")), Emit(ToRoom("R1"), UserJoin("B")),
            Emit(ToRoom("R1"), WaitingForOtherUserEnd("R1")),
            Emit(ToRoom("R1"), BothUsersAgreedEnd("R1"))]
      && Members(voted.next, "R1") == {a, b}
      && Tally(voted.next, "R1") == {}
  {
    var i1, i2, i3, i4 := JoinRoom(a, "R1", "A"), JoinRoom(b, "R1", "B"),
                          UserAgreedEnd(a, "R1", ua), UserAgreedEnd(b, "R1", ub);
    BothJoin(s, a, b);
    BothAgree(Run(s, [i1, i2]).next, a, b, ua, ub);
  }

  /** The first half of the scenario: both sockets join the empty room. */
  lemma BothJoin(s: Server, a: SocketId, b: SocketId)
    requires a != b
    requires Handles(s, a) && Handles(s, b)
    requires Members(s, "R1") == {}
    ensures var r := Run(s, [JoinRoom(a, "R1", "A"), JoinRoom(b, "R1", "B")]);
      && r.actions == [Emit(ToSocket(a), RoomJoined("R1")), Emit(ToRoom("R1"), UserJoin("A")),
                       Emit(ToSocket(b), RoomJoined("R1")), Emit(ToRoom("R1"), UserJoin("B"))]
      && Members(r.next, "R1") == {a, b}
      && Handles(r.next, a) && Handles(r.next, b)
      && Tally(r.next, "R1") == Tally(s, "R1")
  {
    var r1 := Step(s, JoinRoom(a, "R1", "A"));
    assert Handles(r1.next, b);
    RunTwo(s, JoinRoom(a, "R1", "A"), JoinRoom(b, "R1", "B"));
  }

  /** The second half of the scenario: two different users vote in a room with no votes. */
  lemma BothAgree(s: Server, a: SocketId, b: SocketId, ua: UserId, ub: UserId)
    requires ua != ub
    requires Handles(s, a) && Handles(s, b)
    requires Tally(s, "R1") == {}
    ensures var r := Run(s, [UserAgreedEnd(a, "R1", ua), UserAgreedEnd(b, "R1", ub)]);
      && r.actions == [Emit(ToRoom("R1"), WaitingForOtherUserEnd("R1")),
                       Emit(ToRoom("R1"), BothUsersAgreedEnd("R1"))]
      && Members(r.next, "R1") == Members(s, "R1")
      && Tally(r.next, "R1") == {}
  {
    var r3 := Step(s, UserAgreedEnd(a, "R1", ua));
    assert |Tally(s, "R1") + {ua}| == 1;
    assert Tally(r3.next, "R1") == {ua};
    assert Handles(r3.next, b);
    assert |{ua} + {ub}| == 2;
    RunTwo(s, UserAgreedEnd(a, "R1", ua), UserAgreedEnd(b, "R1", ub));
  }

  /** Running `[i] + rest` is one step followed by the rest. */
  /** A token check that settles after its socket disconnected changes nothing: the
      socket stays closed with no handlers, and nothing is emitted. */
  lemma SettleAfterDisconnectIsInert(s: Server, id: SocketId, user: Option<Identity>)
    requires id in s.conns && s.conns[id].phase.Authenticating?
    ensures var d := OnDisconnect(s, id);
      var a := OnAuthSettled(d.next, id, user);
      && d.actions == [] && a == Reaction(d.next, [])
      && id in a.next.conns && a.next.conns[id] == Conn(Closed, s.conns[id].seat)
      && !Handles(a.next, id)
  {
  }

  /** A room emission also reaches the live socket whose id names the room, even one
      still waiting for its token check and so never admitted: here a `user-join` sent
      to room `b` reaches socket `b`. */
  lemma OwnIdRoomReachesWaitingSocket(s: Server, a: SocketId, b: SocketId, username: string)
    requires Handles(s, a) && a != b
    requires b in s.conns && s.conns[b].phase.Authenticating?
    ensures var r := OnJoinRoom(s, a, b, username);
      && r.actions[1] == Emit(ToRoom(b), UserJoin(username))
      && b in Recipients(r.next, r.actions[1].to)
      && !Handles(r.next, b)
  {
  }

  lemma RunCons(s: Server, i: Input, rest: seq<Input>)
    ensures Run(s, [i] + rest) ==
      Reaction(Run(Step(s, i).next, rest).next, Step(s, i).actions + Run(Step(s, i).next, rest).actions)
  {
  }

  /** The key JavaScript reserves for an object's prototype. */
  const ProtoKey: string := "__proto__"

  /** The own keys of a plain JavaScript object after `obj[key] = true`. Assigning to
      `__proto__` runs the prototype setter, which ignores a value that is not an
      object, so that key is never added. */
  function ObjectKeysAfterSet(keys: set<string>, key: string): (k: set<string>)
    ensures key == ProtoKey ==> k == keys
    ensures key != ProtoKey ==> key in k
    ensures k - {key} == keys - {key}
  {
    if key == ProtoKey then keys else keys + {key}
  }

  /** One `user-agreed-end` vote on the tally as the handler stores it, in a plain
      object whose own keys are counted: the keys afterwards, and whether the room is
      finalised (after which the tally restarts empty). */
  function VoteAsWritten(tally: set<UserId>, userId: UserId): (r: (set<UserId>, bool))
    ensures r.1 <==> |ObjectKeysAfterSet(tally, userId)| == 2
    ensures r.1 ==> r.0 == {}
    ensures !r.1 ==> r.0 == ObjectKeysAfterSet(tally, userId)
  {
    var keys := ObjectKeysAfterSet(tally, userId);
    if |keys| == 2 then ({}, true) else (keys, false)
  }

  /** As written, a vote under the user id `__proto__` is never counted: after it and a
      vote by another user both are told to wait, where two distinct voters should
      finalise the room. */
  lemma ProtoVoterIsNotCounted(u: UserId)
    requires u != ProtoKey
    ensures VoteAsWritten({}, ProtoKey) == ({}, false)
    ensures VoteAsWritten(VoteAsWritten({}, ProtoKey).0, u) == ({u}, false)
  {
    assert |{u}| == 1;
  }

  /** Running two inputs is stepping twice. */
  lemma RunTwo(s: Server, i1: Input, i2: Input)
    ensures Run(s, [i1, i2]) ==
      Reaction(Step(Step(s, i1).next, i2).next, Step(s, i1).actions + Step(Step(s, i1).next, i2).actions)
  {
    assert [i1, i2][1..] == [i2];
    assert [i2][1..] == [];
    var r2 := Step(Step(s, i1).next, i2);
    assert Run(Step(s, i1).next, [i2]) == Reaction(r2.next, r2.actions + []);
    assert r2.actions + [] == r2.actions;
  }

  /** A socket that never passed authentication gets no handler: joining, voting and
      disconnecting change no room and emit nothing, so it never appears in a room. */
  lemma UnauthenticatedIsInert(s: Server, input: Input)
    requires Inv(s)
    requires !input.Connection? && !input.AuthSettled?
    requires !Handles(s, input.socket)
    ensures Step(s, input).actions == []
    ensures Step(s, input).next.members == s.members
    ensures Step(s, input).next.agreed == s.agreed
  {
  }
}

=== FILE: forget_password_form.dfy ===
/** The forgot-password form's state: the email being typed and a map of error flags
    (only `email` is ever set). Each handler is a function from the old state to the
    new one; submitting also yields the emails passed to `onSubmit`.
 */
module ForgetPasswordForm {

  const EmailKey: string := "email"

  datatype Form = Form(email: string, errors: map<string, bool>)

  const Initial: Form := Form("", map[])

  /** The input is shown as invalid when `errors.email` is truthy. */
  predicate ShowsEmailError(f: Form) {
    EmailKey in f.errors && f.errors[EmailKey]
  }

  /** `isValid`: the form is valid exactly when an email was typed; the error map is
      rebuilt from nothing, so earlier flags are dropped. */
  function IsValid(f: Form): (r: (bool, Form))
    ensures r.0 <==> f.email != ""
    ensures r.1.email == f.email
    ensures r.0 ==> r.1.errors == map[]
    ensures !r.0 ==> r.1.errors == map[EmailKey := true]
  {
    var errors: map<string, bool> := if f.email == "" then map[EmailKey := true] else map[];
    (|errors| == 0, f.(errors := errors))
  }

  /** `handleEmailOnChange`: take the new value and clear the email flag, keeping every other flag. */
  function HandleEmailOnChange(f: Form, value: string): (g: Form)
    ensures g.email == value
    ensures g.errors.Keys == f.errors.Keys + {EmailKey}
    ensures g.errors[EmailKey] == false
    ensures forall k :: k in f.errors && k != EmailKey ==> g.errors[k] == f.errors[k]
  {
    f.(email := value, errors := f.errors[EmailKey := false])
  }

  /** `handleSubmit`: run `isValid` and, when it holds, call `onSubmit` with the email. */
  function HandleSubmit(f: Form): (r: (Form, seq<string>))
    ensures |r.1| <= 1
    ensures |r.1| == 1 <==> f.email != ""
    ensures |r.1| == 1 ==> r.1[0] == f.email
    ensures r.0.email == f.email
  {
    var (valid, g) := IsValid(f);
    (g, if valid then [f.email] else [])
  }

  /** After a submit the error flag is shown exactly when nothing was submitted. */
  lemma SubmitFlagsIffNothingSent(f: Form)
    ensures ShowsEmailError(HandleSubmit(f).0) <==> HandleSubmit(f).1 == []
  {
  }

  /** Typing after a failed submit hides the error until the next submit, and a
      non-empty value is then sent exactly once. */
  lemma TypingClearsErrorThenSubmits(f: Form, value: string)
    requires HandleSubmit(f).1 == []
    ensures ShowsEmailError(HandleSubmit(f).0)
    ensures !ShowsEmailError(HandleEmailOnChange(HandleSubmit(f).0, value))
    ensures value != "" ==> HandleSubmit(HandleEmailOnChange(HandleSubmit(f).0, value)).1 == [value]
    ensures value == "" ==> HandleSubmit(HandleEmailOnChange(HandleSubmit(f).0, value)).1 == []
  {
  }

  /** A second submit with nothing typed in between leaves the same errors and sends the same thing again. */
  lemma SubmitIdempotentOnState(f: Form)
    ensures HandleSubmit(HandleSubmit(f).0).0 == HandleSubmit(f).0
    ensures HandleSubmit(HandleSubmit(f).0).1 == HandleSubmit(f).1
  {
  }
}

=== FILE: matching.dfy ===
/** The pure decisions of the matching service's controller: combining two users'
    preferences once a partner has been found (the order-preserving intersections,
    the session language with its JavaScript default) and the rule that a match is
    dropped when either side has cancelled.
 */
module Matching {
  import opened Wrappers

  /** `models.QuestionComplexityEnum` and `models.ProgrammingLanguageEnum` are Go string
      types; each value is its underlying string. */
  datatype Complexity = Complexity(level: string)
  datatype Language = Language(name: string)

  /** The language both users get when neither listed one. */
  const JavaScript: Language := Language("JavaScript")
  /** The zero value of the language enum: the empty string. */
  const NoLanguage: Language := Language("")

  datatype Status = Pending | Matched | Cancelled | Timeout

  /** One user's matching request as stored by the service. */
  datatype MatchingInfo = MatchingInfo(
    userId: string,
    username: string,
    socketId: string,
    roomId: string,
    difficultyLevel: seq<Complexity>,
    categories: seq<string>,
    programmingLanguages: seq<Language>,
    status: Status)

  /** What is published once two users are matched; its question is always the empty one. */
  datatype MatchResult = MatchResult(
    userOneSocketId: string,
    userTwoSocketId: string,
    userOne: string,
    usernameOne: string,
    userTwo: string,
    usernameTwo: string,
    roomId: string,
    programmingLanguage: Language,
    complexity: seq<Complexity>,
    categories: seq<string>)

  /** How one run of the matching process ends:
      - Unmatched: no partner came back from the search (the timeout path follows)
      - LookupFailed: a user's status could not be read
      - Discarded: either user had cancelled
      - Published: the match result that is published and broadcast */
  datatype MatchOutcome = Unmatched | LookupFailed | Discarded | Published(result: MatchResult)

  // ---------------------------------------------------------------------------
  // Intersections
  // ---------------------------------------------------------------------------

  /** Reference definition: the elements of `b` that occur in `a`, in `b`'s order. */
  function KeepShared<T(==)>(a: seq<T>, b: seq<T>): seq<T>
    decreases |b|
  {
    if |b| == 0 then []
    else KeepShared(a, b[..|b| - 1]) + (if b[|b| - 1] in a then [b[|b| - 1]] else [])
  }

  /** `r` can be obtained from `b` by deleting elements (greedy match from the back). */
  predicate Subsequence<T(==)>(r: seq<T>, b: seq<T>)
    decreases |b|
  {
    if |r| == 0 then true
    else if |b| == 0 then false
    else if r[|r| - 1] == b[|b| - 1] then Subsequence(r[..|r| - 1], b[..|b| - 1])
    else Subsequence(r, b[..|b| - 1])
  }

  /** `findIntersection` / `findComplexityIntersection`: mark every element of `a` in a
      set, then keep the elements of `b` found in it. */
  method FindIntersection<T(==)>(a: seq<T>, b: seq<T>) returns (r: seq<T>)
    ensures r == KeepShared(a, b)
    ensures forall x :: x in r ==> x in a && x in b
  {
    var marked: set<T> := {};
    for i := 0 to |a|
      invariant marked == set k | 0 <= k < i :: a[k]
    {
      marked := marked + {a[i]};
    }
    assert forall x :: x in marked <==> x in a by {
      forall x ensures x in marked <==> x in a {
        if x in a {
          var k :| 0 <= k < |a| && a[k] == x;
        }
      }
    }
    r := [];
    for j := 0 to |b|
      invariant r == KeepShared(a, b[..j])
    {
      assert b[..j + 1][..j] == b[..j];
      if b[j] in marked {
        r := r + [b[j]];
      }
    }
    assert b[..|b|] == b;
    KeepSharedMembers(a, b);
  }

  /** The complexity instance, used for the two users' difficulty levels. */
  method FindComplexityIntersection(a: seq<Complexity>, b: seq<Complexity>) returns (r: seq<Complexity>)
    ensures r == KeepShared(a, b)
  {
    r := FindIntersection(a, b);
  }

  /** Every element kept occurs in both lists. */
  lemma {:induction false} KeepSharedMembers<T>(a: seq<T>, b: seq<T>)
    ensures forall x :: x in KeepShared(a, b) ==> x in a && x in b
    decreases |b|
  {
    if |b| > 0 {
      KeepSharedMembers(a, b[..|b| - 1]);
      assert b == b[..|b| - 1] + [b[|b| - 1]];
    }
  }

  /** The intersection keeps `b`'s multiplicity for the elements of `a` and drops all others. */
  lemma {:induction false} KeepSharedCounts<T>(a: seq<T>, b: seq<T>)
    ensures forall x :: multiset(KeepShared(a, b))[x] == if x in a then multiset(b)[x] else 0
    decreases |b|
  {
    if |b| > 0 {
      var init := b[..|b| - 1];
      KeepSharedCounts(a, init);
      assert b == init + [b[|b| - 1]];
      assert multiset(b) == multiset(init) + multiset{b[|b| - 1]};
    }
  }

  /** The intersection keeps `b`'s order. */
  lemma {:induction false} KeepSharedOrdered<T>(a: seq<T>, b: seq<T>)
    ensures Subsequence(KeepShared(a, b), b)
    decreases |b|
  {
    if |b| > 0 {
      var init := b[..|b| - 1];
      KeepSharedOrdered(a, init);
      if b[|b| - 1] in a {
        var r := KeepShared(a, b);
        assert r[..|r| - 1] == KeepShared(a, init);
      } else {
        assert KeepShared(a, b) == KeepShared(a, init) + [];
        assert KeepShared(a, init) + [] == KeepShared(a, init);
        SubsequenceExtend(KeepShared(a, init), init, b[|b| - 1]);
        assert init + [b[|b| - 1]] == b;
      }
    }
  }

  lemma {:induction false} SubsequenceExtend<T>(r: seq<T>, b: seq<T>, y: T)
    requires Subsequence(r, b)
    ensures Subsequence(r, b + [y])
    decreases |b|, 1
  {
    var b' := b + [y];
    assert b'[..|b'| - 1] == b;
    if |r| > 0 && r[|r| - 1] == y {
      // matched greedily against y: the rest of r must still fit in b
      SubsequenceDropLast(r, b);
    }
  }

  lemma {:induction false} SubsequenceDropLast<T>(r: seq<T>, b: seq<T>)
    requires |r| > 0 && Subsequence(r, b)
    ensures Subsequence(r[..|r| - 1], b)
    decreases |b|, 0
  {
    var init := b[..|b| - 1];
    if r[|r| - 1] == b[|b| - 1] {
      SubsequenceExtend(r[..|r| - 1], init, b[|b| - 1]);
      assert init + [b[|b| - 1]] == b;
    } else {
      SubsequenceDropLast(r, init);
      SubsequenceExtend(r[..|r| - 1], init, b[|b| - 1]);
      assert init + [b[|b| - 1]] == b;
    }
  }

  /** Nothing is shared with an empty list. */
  lemma KeepSharedEmpty<T>(a: seq<T>, b: seq<T>)
    requires |a| == 0 || |b| == 0
    ensures KeepShared(a, b) == []
  {
  }

  /** The first kept element is the first element of `b` that occurs in `a`; nothing is
      kept when no element of `b` occurs in `a`. */
  lemma {:induction false} KeepSharedHead<T>(a: seq<T>, b: seq<T>)
    ensures |KeepShared(a, b)| > 0 <==> exists i :: 0 <= i < |b| && b[i] in a
    ensures |KeepShared(a, b)| > 0 ==>
      exists i :: 0 <= i < |b| && b[i] in a && KeepShared(a, b)[0] == b[i] &&
        forall j :: 0 <= j < i ==> b[j] !in a
    decreases |b|
  {
    if |b| > 0 {
      var init := b[..|b| - 1];
      KeepSharedHead(a, init);
      assert forall j :: 0 <= j < |init| ==> init[j] == b[j];
      if |KeepShared(a, init)| > 0 {
        var i :| 0 <= i < |init| && init[i] in a && KeepShared(a, init)[0] == init[i] &&
          forall j :: 0 <= j < i ==> init[j] !in a;
        assert KeepShared(a, b)[0] == b[i];
      } else if b[|b| - 1] in a {
        assert KeepShared(a, b)[0] == b[|b| - 1];
        assert forall j :: 0 <= j < |b| - 1 ==> b[j] !in a;
      } else {
        assert forall j :: 0 <= j < |b| ==> b[j] !in a;
      }
    }
  }

  // ---------------------------------------------------------------------------
  // Languages
  // ---------------------------------------------------------------------------

  /** `convertEnumToStringSlice`: element `i` is the string of enum `i`. */
  function ConvertEnumToStringSlice(enums: seq<Language>): (r: seq<string>)
    ensures |r| == |enums|
    ensures forall i :: 0 <= i < |r| ==> r[i] == enums[i].name
  {
    seq(|enums|, i requires 0 <= i < |enums| => enums[i].name)
  }

  /** `ProgrammingLanguageEnum(s)` applied to every string. */
  function ToLanguages(names: seq<string>): (r: seq<Language>)
    ensures |r| == |names|
    ensures forall i :: 0 <= i < |r| ==> r[i].name == names[i]
  {
    seq(|names|, i requires 0 <= i < |names| => Language(names[i]))
  }

  /** Converting to strings loses nothing: casting back gives the same languages. */
  lemma ConvertRoundTrip(enums: seq<Language>)
    ensures ToLanguages(ConvertEnumToStringSlice(enums)) == enums
  {
  }

  /** A name is among the converted strings exactly when its language is in the list. */
  lemma ConvertMembership(enums: seq<Language>, name: string)
    ensures name in ConvertEnumToStringSlice(enums) <==> Language(name) in enums
  {
  }

  /** The session language: the first of the requester's languages that the partner
      also listed, or the empty enum value when they share none. */
  predicate FirstCommonLanguage(lang: Language, mine: seq<Language>, theirs: seq<Language>) {
    if exists i :: 0 <= i < |mine| && mine[i] in theirs then
      exists i :: 0 <= i < |mine| && mine[i] in theirs && lang == mine[i] &&
        forall j :: 0 <= j < i ==> mine[j] !in theirs
    else
      lang == NoLanguage
  }

  /** When both language lists are empty, both become `[JavaScript]`. */
  function ApplyLanguageDefault(requester: MatchingInfo, matched: MatchingInfo): (r: (MatchingInfo, MatchingInfo))
    ensures |requester.programmingLanguages| == 0 && |matched.programmingLanguages| == 0 ==>
      r.0.programmingLanguages == [JavaScript] && r.1.programmingLanguages == [JavaScript]
    ensures |requester.programmingLanguages| != 0 || |matched.programmingLanguages| != 0 ==>
      r == (requester, matched)
    ensures r.0 == requester.(programmingLanguages := r.0.programmingLanguages)
    ensures r.1 == matched.(programmingLanguages := r.1.programmingLanguages)
  {
    if |matched.programmingLanguages| == 0 && |requester.programmingLanguages| == 0 then
      (requester.(programmingLanguages := [JavaScript]), matched.(programmingLanguages := [JavaScript]))
    else
      (requester, matched)
  }

  /** The intersection of the partner's and the requester's language strings, filtered in
      the requester's order, then its first element or the zero value. */
  method SelectLanguage(mine: seq<Language>, theirs: seq<Language>) returns (lang: Language)
    ensures FirstCommonLanguage(lang, mine, theirs)
  {
    var theirNames := ConvertEnumToStringSlice(theirs);
    var myNames := ConvertEnumToStringSlice(mine);
    var common := FindIntersection(theirNames, myNames);
    KeepSharedHead(theirNames, myNames);
    forall i | 0 <= i < |mine| ensures myNames[i] in theirNames <==> mine[i] in theirs {
      ConvertMembership(theirs, myNames[i]);
      assert Language(myNames[i]) == mine[i];
    }
    if |common| > 0 {
      lang := Language(common[0]);
    } else {
      lang := NoLanguage;
    }
  }

  /** Both users listing no language always ends in a JavaScript session. */
  lemma DefaultIsJavaScript(requester: MatchingInfo, matched: MatchingInfo, lang: Language)
    requires |requester.programmingLanguages| == 0 && |matched.programmingLanguages| == 0
    requires var d := ApplyLanguageDefault(requester, matched);
      FirstCommonLanguage(lang, d.0.programmingLanguages, d.1.programmingLanguages)
    ensures lang == JavaScript
  {
    var d := ApplyLanguageDefault(requester, matched);
    assert d.0.programmingLanguages[0] in d.1.programmingLanguages;
  }

  // ---------------------------------------------------------------------------
  // The matching process once the search has returned
  // ---------------------------------------------------------------------------

  /** The decisions of `startMatchingProcess` after the search: `found` is the partner
      (None for an error or no result), the statuses are the two database lookups, made
      in that order. */
  method StartMatchingProcess(requester: MatchingInfo, found: Option<MatchingInfo>,
                              requesterStatus: Attempt<Status>, partnerStatus: Attempt<Status>)
    returns (outcome: MatchOutcome)
    ensures outcome.Unmatched? <==> found.None?
    ensures outcome.LookupFailed? <==> found.Some? && (requesterStatus.Threw? || partnerStatus.Threw?)
    ensures outcome.Discarded? <==>
      && found.Some? && requesterStatus.Returned? && partnerStatus.Returned?
      && (requesterStatus.value == Cancelled || partnerStatus.value == Cancelled)
    ensures outcome.Published? ==>
      var partner := found.value;
      var d := ApplyLanguageDefault(requester, partner);
      var m := outcome.result;
      && m.roomId == requester.roomId
      && m.userOne == requester.userId && m.usernameOne == requester.username
      && m.userOneSocketId == requester.socketId
      && m.userTwo == partner.userId && m.usernameTwo == partner.username
      && m.userTwoSocketId == partner.socketId
      && m.complexity == KeepShared(requester.difficultyLevel, partner.difficultyLevel)
      && m.categories == KeepShared(requester.categories, partner.categories)
      && FirstCommonLanguage(m.programmingLanguage, d.0.programmingLanguages, d.1.programmingLanguages)
  {
    if found.None? {
      return Unmatched;
    }
    var d := ApplyLanguageDefault(requester, found.value);
    var me, partner := d.0, d.1;
    if requesterStatus.Threw? || partnerStatus.Threw? {
      return LookupFailed;
    }
    if requesterStatus.value == Cancelled || partnerStatus.value == Cancelled {
      return Discarded;
    }
    var complexity := FindComplexityIntersection(me.difficultyLevel, partner.difficultyLevel);
    var categories := FindIntersection(me.categories, partner.categories);
    var lang := SelectLanguage(me.programmingLanguages, partner.programmingLanguages);
    outcome := Published(MatchResult(
      me.socketId, partner.socketId,
      me.userId, me.username,
      partner.userId, partner.username,
      me.roomId, lang, complexity, categories));
  }
}

=== FILE: page_guard.dfy ===
/** The web front end's route guard, run before every page: public pages pass, every
    other page needs an `accessToken` cookie that the user service accepts, and pages
    under `/admin` need an admin. The call to the user service's token check is a
    parameter: it throws, returns a falsy value, or returns a decoded user with its role.
 */
module PageGuard {
  import opened Wrappers
  import opened Strings
  import AuthController
  import AccessControl

  /** The pages that need no login, matched by exact path. */
  const PublicRoutes: seq<string> := ["/", "/login", "/register", "/forget-password", "/reset-password"]
  const AdminPrefix: string := "/admin"
  const LoginPage: string := "/login"
  const ForbiddenPage: string := "/403"

  /** What `validateToken()` gives back. */
  datatype Validation = ValidationThrew | Falsy | Decoded(isAdmin: bool)

  /** `NextResponse.next()`, a redirect, or a rejected middleware promise. */
  datatype Decision = Next | Redirect(location: string) | Failed

  predicate IsPublic(path: string) {
    exists i :: 0 <= i < |PublicRoutes| && PublicRoutes[i] == path
  }

  /** `middleware` */
  function Middleware(path: string, accessToken: Option<string>, validation: Validation): (d: Decision)
    ensures IsPublic(path) ==> d == Next
    ensures !IsPublic(path) && !Truthy(accessToken) ==> d == Redirect(LoginPage)
    ensures !IsPublic(path) && Truthy(accessToken) ==>
      match validation
      case ValidationThrew => d == Failed
      case Falsy => d == Redirect(LoginPage)
      case Decoded(isAdmin) => d == (if StartsWith(path, AdminPrefix) && !isAdmin then Redirect(ForbiddenPage) else Next)
  {
    if IsPublic(path) then Next
    else if !Truthy(accessToken) then Redirect(LoginPage)
    else match validation
      case ValidationThrew => Failed
      case Falsy => Redirect(LoginPage)
      case Decoded(isAdmin) =>
        if StartsWith(path, AdminPrefix) && !isAdmin then Redirect(ForbiddenPage)
        else Next
  }

  /** A page is let through exactly when it is public, or the visitor holds a token the
      user service accepts and the page is outside `/admin` or the visitor is an admin. */
  lemma NextIff(path: string, accessToken: Option<string>, validation: Validation)
    ensures Middleware(path, accessToken, validation) == Next <==>
      || IsPublic(path)
      || (&& Truthy(accessToken) && validation.Decoded?
          && (!StartsWith(path, AdminPrefix) || validation.isAdmin))
  {
  }

  /** Public routes are matched exactly: a page below a public route is not public. */
  lemma PrefixOfPublicIsNotPublic()
    ensures !IsPublic("/login/")
    ensures !IsPublic("/register/confirm")
    ensures Middleware("/login/", None, Falsy) == Redirect(LoginPage)
  {
  }

  /** Any path beginning with `/admin`, such as `/administrator`, is refused to a signed-in non-admin. */
  lemma AdminPrefixGuardsEveryExtension(suffix: string, accessToken: Option<string>)
    requires Truthy(accessToken)
    ensures Middleware(AdminPrefix + suffix, accessToken, Decoded(false)) == Redirect(ForbiddenPage)
  {
    var path := AdminPrefix + suffix;
    assert path[..|AdminPrefix|] == AdminPrefix;
    assert path[0] == '/' && path[1] == 'a';
    assert forall i :: 0 <= i < |PublicRoutes| ==> PublicRoutes[i] != path by {
      forall i | 0 <= i < |PublicRoutes| ensures PublicRoutes[i] != path {
        if |PublicRoutes[i]| >= 2 {
          assert PublicRoutes[i][1] != 'a';
        }
      }
    }
  }

  // ---------------------------------------------------------------------------
  // Which paths the middleware runs on
  // ---------------------------------------------------------------------------

  /** The middleware config's `matcher`, `/((?!api|_next/static|_next/image|.*\.png$).*)`,
      applied to the whole path: after the leading `/`, the rest must not start with
      `api`, `_next/static` or `_next/image`, and must not end in `.png`. Read on the
      whole path: it starts with `/` but not with `/api`, `/_next/static` or
      `/_next/image`, and does not end in `.png`. */
  predicate Guarded(path: string): (g: bool)
    ensures g <==>
      && StartsWith(path, "/")
      && !StartsWith(path, "/api")
      && !StartsWith(path, "/_next/static")
      && !StartsWith(path, "/_next/image")
      && !EndsWith(path, ".png")
  {
    if |path| > 0 && path[0] == '/' then
      StartsWithTail(path, "api");
      StartsWithTail(path, "_next/static");
      StartsWithTail(path, "_next/image");
      assert [path[0]] + "api" == "/api";
      assert [path[0]] + "_next/static" == "/_next/static";
      assert [path[0]] + "_next/image" == "/_next/image";
      EndsWithTail(path, ".png");
      !StartsWith(path[1..], "api")
      && !StartsWith(path[1..], "_next/static")
      && !StartsWith(path[1..], "_next/image")
      && !EndsWith(path[1..], ".png")
    else
      false
  }

  /** What a page request meets: the middleware when the matcher selects the path; a
      path the matcher skips is served with no check at all. */
  function Guard(path: string, accessToken: Option<string>, validation: Validation): (d: Decision)
    ensures !Guarded(path) ==> d == Next
    ensures d == Next <==>
      || !Guarded(path)
      || IsPublic(path)
      || (&& Truthy(accessToken) && validation.Decoded?
          && (!StartsWith(path, AdminPrefix) || validation.isAdmin))
    ensures d != Next ==> d == Middleware(path, accessToken, validation)
  {
    if Guarded(path) then Middleware(path, accessToken, validation) else Next
  }

  /** Every `/admin` page the matcher selects refuses a signed-in non-admin. */
  lemma GuardedAdminPagesNeedAdmin(suffix: string, accessToken: Option<string>)
    requires Truthy(accessToken)
    requires !EndsWith(AdminPrefix + suffix, ".png")
    ensures Guarded(AdminPrefix + suffix)
    ensures Guard(AdminPrefix + suffix, accessToken, Decoded(false)) == Redirect(ForbiddenPage)
  {
    var path := AdminPrefix + suffix;
    var rest := path[1..];
    assert rest[0] == 'a' && rest[1] == 'd';
    assert path[|path| - 4..] == rest[|rest| - 4..];
    AdminPrefixGuardsEveryExtension(suffix, accessToken);
  }

  /** An `/admin` path ending in `.png` is skipped by the matcher, so it is served to anyone. */
  lemma AdminImagesSkipTheGuard(stem: string, accessToken: Option<string>, validation: Validation)
    ensures !Guarded(AdminPrefix + stem + ".png")
    ensures Guard(AdminPrefix + stem + ".png", accessToken, validation) == Next
  {
    var path := AdminPrefix + stem + ".png";
    assert path[1..][|path[1..]| - 4..] == ".png";
  }

  // ---------------------------------------------------------------------------
  // Where the role comes from
  // ---------------------------------------------------------------------------

  /** `validateToken()` followed by `decodedAccessToken.isAdmin`, as the middleware is
      written: the verify-token reply's body is returned whole, and that body holds the
      user under `data`, so its top-level `isAdmin` is `undefined` and reads as false. A
      failed request makes `validateToken` throw. */
  function ValidationAsWritten(reply: Attempt<AuthController.VerifyReply>): (v: Validation)
    ensures v.ValidationThrew? <==> reply.Threw?
    ensures reply.Returned? ==> v == Decoded(false)
  {
    match reply
    case Threw(_) => ValidationThrew
    case Returned(_) => Decoded(false)
  }

  /** The role the middleware evidently means to read: that of the user under `data`. */
  function ValidationOf(reply: Attempt<AuthController.VerifyReply>): (v: Validation)
    ensures v.ValidationThrew? <==> reply.Threw?
    ensures reply.Returned? ==> v.Decoded? && v.isAdmin == reply.value.data.isAdmin
  {
    match reply
    case Threw(_) => ValidationThrew
    case Returned(body) => Decoded(body.data.isAdmin)
  }

  /** As written, an admin with a valid token is sent to `/403` from every `/admin` page
      the matcher selects; reading the role under `data` lets the admin through. */
  lemma AdminLockedOutAsWritten(user: AccessControl.RequestUser, suffix: string, accessToken: Option<string>)
    requires user.isAdmin
    requires Truthy(accessToken)
    requires !EndsWith(AdminPrefix + suffix, ".png")
    ensures var reply := Returned(AuthController.HandleVerifyToken(user));
      && Guard(AdminPrefix + suffix, accessToken, ValidationAsWritten(reply)) == Redirect(ForbiddenPage)
      && Guard(AdminPrefix + suffix, accessToken, ValidationOf(reply)) == Next
  {
    GuardedAdminPagesNeedAdmin(suffix, accessToken);
  }
}

=== FILE: site_config.dfy ===
/** The front end's site configuration, which depends on whether the viewer is an
    admin, and its agreement with the route guard: every navigation link the viewer
    is shown is one the guard lets that viewer through, provided the guard reads the
    viewer's real role.
 */
module SiteConfig {
  import opened Wrappers
  import opened Strings
  import PageGuard
  import AccessControl
  import AuthController

  datatype NavItem = NavItem(title: string, href: string)
  datatype Links = Links(github: string, docs: string, login: string)
  datatype Config = Config(
    name: string,
    description: string,
    navItems: seq<NavItem>,
    navMenuItems: seq<NavItem>,
    links: Links)

  /** The questions page: the admin's management view or the ordinary list. */
  function QuestionsHref(isAdmin: bool): string {
    if isAdmin then "/admin/questions" else "/questions"
  }

  /** `siteConfig(isAdmin)` */
  function Site(isAdmin: bool): (c: Config)
    ensures |c.navItems| == 3
    ensures c.navItems[0].title == "Match" && c.navItems[1].title == "Questions" && c.navItems[2].title == "History"
    ensures StartsWith(c.navItems[1].href, PageGuard.AdminPrefix) <==> isAdmin
  {
    assert !StartsWith("/questions", PageGuard.AdminPrefix) by {
      assert "/questions"[1] != PageGuard.AdminPrefix[1];
    }
    assert "/admin/questions"[..|PageGuard.AdminPrefix|] == PageGuard.AdminPrefix;
    Config(
      "PeerPrep",
      "Your Interview Prep Platform.",
      [NavItem("Match", "/match"), NavItem("Questions", QuestionsHref(isAdmin)), NavItem("History", "/history")],
      [NavItem("Profile", "/profile"), NavItem("Dashboard", "/dashboard"), NavItem("Projects", "/projects"),
       NavItem("Team", "/team"), NavItem("Calendar", "/calendar"), NavItem("Settings", "/settings"),
       NavItem("Help & Feedback", "/help-feedback"), NavItem("Logout", "/logout")],
      Links("https://github.com/CS3219-AY2425S1/cs3219-ay2425s1-project-g47",
            "https://nextui-docs-v2.vercel.app",
            "/login"))
  }

  /** The role changes the Questions link and nothing else. */
  lemma OnlyQuestionsHrefDependsOnRole()
    ensures Site(true).(navItems := []) == Site(false).(navItems := [])
    ensures Site(true).navItems[0] == Site(false).navItems[0]
    ensures Site(true).navItems[2] == Site(false).navItems[2]
    ensures Site(true).navItems[1].href == "/admin/questions"
    ensures Site(false).navItems[1].href == "/questions"
  {
  }

  /** A non-admin's navigation never links under `/admin`. */
  lemma NonAdminNavAvoidsAdminPages()
    ensures forall i :: 0 <= i < |Site(false).navItems| ==>
      !StartsWith(Site(false).navItems[i].href, PageGuard.AdminPrefix)
  {
  }

  /** Every navigation link shown to a signed-in viewer is one the route guard lets that
      viewer through, when the guard reads the viewer's role from the verify-token reply's
      `data`. */
  lemma NavLinksPassTheGuard(user: AccessControl.RequestUser, accessToken: Option<string>)
    requires Truthy(accessToken)
    ensures var reply := Returned(AuthController.HandleVerifyToken(user));
      forall i :: 0 <= i < |Site(user.isAdmin).navItems| ==>
        PageGuard.Guard(Site(user.isAdmin).navItems[i].href, accessToken, PageGuard.ValidationOf(reply)) == PageGuard.Next
  {
    NavLinksAreGuarded(user.isAdmin);
    if !user.isAdmin {
      NonAdminNavAvoidsAdminPages();
    }
  }

  /** The middleware's matcher selects every navigation link: none is an API route,
      a Next.js asset or a `.png` file. */
  lemma NavLinksAreGuarded(isAdmin: bool)
    ensures forall i :: 0 <= i < |Site(isAdmin).navItems| ==> PageGuard.Guarded(Site(isAdmin).navItems[i].href)
  {
    var hrefs := NavHrefs(isAdmin);
    NavHrefsGuarded(isAdmin);
    forall i | 0 <= i < |Site(isAdmin).navItems| ensures PageGuard.Guarded(Site(isAdmin).navItems[i].href) {
      assert Site(isAdmin).navItems[i].href == hrefs[i];
    }
  }

  lemma NavHrefsGuarded(isAdmin: bool)
    ensures forall i :: 0 <= i < 3 ==> PageGuard.Guarded(NavHrefs(isAdmin)[i])
  {
    forall i | 0 <= i < 3 ensures PageGuard.Guarded(NavHrefs(isAdmin)[i]) {
      PlainPageGuarded(NavHrefs(isAdmin)[i]);
    }
  }

  /** The three navigation targets, in order. */
  function NavHrefs(isAdmin: bool): (hrefs: seq<string>)
    ensures |hrefs| == |Site(isAdmin).navItems| == 3
    ensures forall i :: 0 <= i < 3 ==> Site(isAdmin).navItems[i].href == hrefs[i]
    ensures hrefs[0] == "/match" && hrefs[2] == "/history" && hrefs[1] == QuestionsHref(isAdmin)
  {
    ["/match", QuestionsHref(isAdmin), "/history"]
  }

  /** A page path whose first segment starts neither with `_` nor with `ap`, and whose
      last character is not `g`, is selected by the matcher. */
  lemma PlainPageGuarded(href: string)
    requires |href| >= 3 && href[0] == '/'
    requires href[1] != '_' && (href[1] != 'a' || href[2] != 'p')
    requires href[|href| - 1] != 'g'
    ensures PageGuard.Guarded(href)
  {
    var rest := href[1..];
    assert rest[0] == href[1] && rest[1] == href[2];
    assert rest[|rest| - 1] == href[|href| - 1];
  }

  /** With the role read as the middleware is written, an admin's Questions link leads to `/403`. */
  lemma AdminQuestionsLinkRefusedAsWritten(user: AccessControl.RequestUser, accessToken: Option<string>)
    requires user.isAdmin
    requires Truthy(accessToken)
    ensures var reply := Returned(AuthController.HandleVerifyToken(user));
      PageGuard.Guard(Site(true).navItems[1].href, accessToken, PageGuard.ValidationAsWritten(reply))
        == PageGuard.Redirect(PageGuard.ForbiddenPage)
  {
    var href := Site(true).navItems[1].href;
    assert PageGuard.AdminPrefix + "/questions" == href;
    assert href[|href| - 1] != 'g';
    PageGuard.AdminLockedOutAsWritten(user, "/questions", accessToken);
  }
}

=== FILE: strings.dfy ===
/** The few JavaScript string operations the modelled code relies on:
    `startsWith`, `endsWith`, `split` with a non-empty separator string, and the truthiness
    test `if (!s)` applied to a value that is either a string or `undefined`.
 */
module Strings {
  import opened Wrappers

  /** `!!v` for a value that is a string or undefined: the empty string is falsy. */
  predicate Truthy(v: Option<string>) {
    v.Some? && v.value != ""
  }

  /** `s.startsWith(prefix)` */
  predicate StartsWith(s: string, prefix: string) {
    |prefix| <= |s| && s[..|prefix|] == prefix
  }

  /** `s.endsWith(suffix)` */
  predicate EndsWith(s: string, suffix: string) {
    |suffix| <= |s| && s[|s| - |suffix|..] == suffix
  }

  /** `sep` occurs in `s` starting at index `i`. */
  predicate OccursAt(s: string, sep: string, i: nat) {
    i + |sep| <= |s| && s[i..i + |sep|] == sep
  }

  /** An occurrence at index `j >= 1` of `s` is an occurrence at `j - 1` of its tail. */
  lemma OccursAtTail(s: string, sep: string)
    requires |s| > 0
    ensures forall j: nat :: 1 <= j ==> (OccursAt(s, sep, j) <==> OccursAt(s[1..], sep, j - 1))
  {
  }

  /** `s.indexOf(sep)`, with `None` for -1: the leftmost occurrence of `sep` in `s`. */
  function IndexOf(s: string, sep: string): (r: Option<nat>)
    requires |sep| > 0
    ensures r.Some? ==> OccursAt(s, sep, r.value)
    ensures r.Some? ==> forall j: nat :: j < r.value ==> !OccursAt(s, sep, j)
    ensures r.None? ==> forall j: nat :: !OccursAt(s, sep, j)
    decreases |s|
  {
    if |s| < |sep| then None
    else if s[..|sep|] == sep then Some(0)
    else
      assert !OccursAt(s, sep, 0) by { assert s[0..|sep|] == s[..|sep|]; }
      OccursAtTail(s, sep);
      match IndexOf(s[1..], sep)
      case None => None
      case Some(i) => Some(i + 1)
  }

  /** `s.split(sep)` for a non-empty separator string: the pieces between the
      non-overlapping, leftmost-first occurrences of `sep`. */
  function Split(s: string, sep: string): (parts: seq<string>)
    requires |sep| > 0
    ensures |parts| >= 1
    decreases |s|
  {
    match IndexOf(s, sep)
    case None => [s]
    case Some(i) => [s[..i]] + Split(s[i + |sep|..], sep)
  }

  /** `parts.join(sep)` */
  function Join(parts: seq<string>, sep: string): string {
    if |parts| == 0 then ""
    else if |parts| == 1 then parts[0]
    else parts[0] + sep + Join(parts[1..], sep)
  }

  /** Splitting loses nothing: joining the pieces with the separator gives back the string. */
  lemma {:induction false} JoinSplit(s: string, sep: string)
    requires |sep| > 0
    ensures Join(Split(s, sep), sep) == s
    decreases |s|
  {
    match IndexOf(s, sep)
    case None =>
    case Some(i) =>
      var rest := Split(s[i + |sep|..], sep);
      JoinSplit(s[i + |sep|..], sep);
      assert Split(s, sep) == [s[..i]] + rest;
      assert ([s[..i]] + rest)[1..] == rest;
      assert Join(Split(s, sep), sep) == s[..i] + sep + s[i + |sep|..];
      assert s[i..i + |sep|] == sep;
      assert s == s[..i] + s[i..i + |sep|] + s[i + |sep|..];
  }

  /** No piece of a split contains the separator. */
  lemma {:induction false} SplitPiecesFree(s: string, sep: string)
    requires |sep| > 0
    ensures forall p :: p in Split(s, sep) ==> IndexOf(p, sep).None?
    decreases |s|
  {
    match IndexOf(s, sep)
    case None =>
    case Some(i) =>
      var tail := s[i + |sep|..];
      SplitPiecesFree(tail, sep);
      assert Split(s, sep) == [s[..i]] + Split(tail, sep);
      BeforeFirstIsFree(s, sep, i);
  }

  /** The text before the leftmost occurrence of the separator holds none. */
  lemma BeforeFirstIsFree(s: string, sep: string, i: nat)
    requires |sep| > 0 && i <= |s|
    requires forall j: nat :: j < i ==> !OccursAt(s, sep, j)
    ensures IndexOf(s[..i], sep).None?
  {
    var head := s[..i];
    forall j: nat ensures !OccursAt(head, sep, j) {
      if j + |sep| <= |head| {
        assert head[j..j + |sep|] == s[j..j + |sep|];
        assert !OccursAt(s, sep, j);
      }
    }
  }

  /** A string without the separator's first character, followed by the separator,
      has its leftmost occurrence of the separator right there. */
  lemma IndexOfAfterFree(p: string, rest: string, sep: string)
    requires |sep| > 0
    requires sep[0] !in p
    requires StartsWith(rest, sep)
    ensures IndexOf(p + rest, sep) == Some(|p|)
  {
    var s := p + rest;
    assert s[|p|..|p| + |sep|] == rest[..|sep|];
    assert OccursAt(s, sep, |p|);
    forall j: nat | j < |p|
      ensures !OccursAt(s, sep, j)
    {
      if j + |sep| <= |s| {
        assert s[j..j + |sep|][0] == s[j] == p[j];
      }
    }
  }

  /** A string without the separator's first character has no occurrence of it. */
  lemma IndexOfFree(p: string, sep: string)
    requires |sep| > 0
    requires sep[0] !in p
    ensures IndexOf(p, sep) == None
  {
  }

  /** Splitting `p + sep + s` peels off `p` when `p` cannot start an occurrence of `sep`. */
  lemma SplitAfterFree(p: string, sep: string, s: string)
    requires |sep| > 0
    requires sep[0] !in p
    ensures Split(p + sep + s, sep) == [p] + Split(s, sep)
  {
    var whole := p + sep + s;
    assert whole == p + (sep + s);
    IndexOfAfterFree(p, sep + s, sep);
    assert whole[..|p|] == p;
    assert whole[|p| + |sep|..] == s;
  }

  /** Splitting undoes joining, provided no joined piece contains the separator's first character. */
  lemma {:induction false} SplitJoin(xs: seq<string>, sep: string)
    requires |sep| > 0
    requires |xs| >= 1
    requires forall k :: 0 <= k < |xs| ==> sep[0] !in xs[k]
    ensures Split(Join(xs, sep), sep) == xs
    decreases |xs|
  {
    if |xs| == 1 {
      IndexOfFree(xs[0], sep);
    } else {
      SplitJoin(xs[1..], sep);
      SplitAfterFree(xs[0], sep, Join(xs[1..], sep));
      assert [xs[0]] + xs[1..] == xs;
    }
  }

  /** The first piece of a split is a prefix of the string that holds no occurrence of
      the separator, and it runs to the first separator or to the end of the string. */
  lemma SplitHead(s: string, sep: string)
    requires |sep| > 0
    ensures StartsWith(s, Split(s, sep)[0])
    ensures IndexOf(Split(s, sep)[0], sep).None?
    ensures Split(s, sep)[0] == s || StartsWith(s, Split(s, sep)[0] + sep)
  {
    SplitPiecesFree(s, sep);
    assert Split(s, sep)[0] in Split(s, sep);
    match IndexOf(s, sep)
    case None =>
    case Some(i) =>
      assert s[..i + |sep|] == s[..i] + s[i..i + |sep|];
  }

  /** Putting the same text in front of a string and of its prefix keeps it a prefix. */
  lemma PrefixExtend(p: string, s: string, u: string)
    requires StartsWith(s, u)
    ensures StartsWith(p + s, p + u)
  {
    assert (p + s)[..|p + u|] == p + s[..|u|];
  }

  /** Dropping a known first character moves a prefix test onto the tail. */
  lemma StartsWithTail(s: string, p: string)
    requires |s| > 0
    ensures StartsWith(s[1..], p) <==> StartsWith(s, [s[0]] + p)
  {
    if StartsWith(s[1..], p) {
      assert s[..|[s[0]] + p|] == [s[0]] + s[1..][..|p|];
    }
    if StartsWith(s, [s[0]] + p) {
      assert s[1..][..|p|] == s[..|[s[0]] + p|][1..];
    }
  }

  /** A suffix test is unaffected by dropping a first character the suffix cannot begin with. */
  lemma EndsWithTail(s: string, suffix: string)
    requires |s| > 0 && |suffix| > 0 && s[0] != suffix[0]
    ensures EndsWith(s[1..], suffix) <==> EndsWith(s, suffix)
  {
    if |suffix| <= |s| - 1 {
      assert s[1..][|s| - 1 - |suffix|..] == s[|s| - |suffix|..];
    }
  }

  /** A string with no occurrence of a one-character separator does not contain that character. */
  lemma NoOccurrenceNoChar(s: string, c: char)
    requires IndexOf(s, [c]).None?
    ensures c !in s
  {
  }
}

=== FILE: users.dfy ===
/** A user document as the user service's repository returns it. */
module Users {
  datatype UserRecord = UserRecord(
    id: string,
    username: string,
    email: string,
    password: string,   // the bcrypt hash
    isAdmin: bool,
    createdAt: int)
}

=== FILE: wrappers.dfy ===
/** The two shapes of partial result the model passes around.
    `Option` stands for JavaScript's `undefined` or Go's `nil`: a field never set, a
    lookup that found nothing. `Attempt` stands for a call into code outside the
    model, which either hands back a value or throws (or rejects its promise).
 */
module Wrappers {

  datatype Option<+T> = None | Some(value: T)

  /** A call to an external collaborator (a database lookup, a JWT library, a mailer):
      it either returns a value or throws an error carrying a message. */
  datatype Attempt<+T> = Returned(value: T) | Threw(message: string)
}
